=== FILE: README.md ===
# Document question answering backend, modelled in Dafny

This project models the core of a FastAPI backend that answers questions about
uploaded documents. The backend does the following:

- It validates an uploaded PDF or TXT file's name and stores the file under a
  random name.
- It extracts the text and cuts it into overlapping 800-character chunks.
- It embeds the chunks with a sentence-embedding model.
- It keeps vectors in a flat L2 FAISS index.
- To answer a question, it embeds the question, searches the index, fetches
  the matching chunk rows from the database, asks a language model, and cites
  the chunks it used.
- It keeps a `documents` table of metadata, which can be listed, looked up and
  deleted. Deleting also removes the document's index directory.

Everything is written as pure functions over immutable data. Failures are
`Result` values carrying the exception the code would raise (`Errors`). The
disk, the database, the embedding model, the language model and the random id
are parameters. So is every point where faiss, the file system or the
database raises, the chunk query of the question-answering service included:
a fault argument says whether that step fails and with what
message. The one exception is `save_file`'s write (see "Left out").

| module | file | models |
|---|---|---|
| `Text` | text.dfy | `str.strip`, `str.lower`, `sep.join`, `str(int)`, zero-padded decimals, Python slices |
| `Errors` | errors.dfy | exceptions, `Result`, the `except Exception as e: raise HTTPException(..., f"...: {e}")` wrapper |
| `Splitter` | splitter.dfy | `TextSplitter` (services/text_spitter.py) |
| `Nearest` | nearest.dfy | exact ranking of an `IndexFlatL2` by squared distance |
| `VectorStore` | vector_store.dfy | `FAISSVectorStore` (services/vector_store_faiss.py) |
| `FileUtils` | file_utils.dfy | `FileUtils` (utils/file_utils.py) |
| `TextExtraction` | text_extraction.dfy | `TextExtractor` (services/text_extraction.py) |
| `Embeddings` | embeddings.dfy | `EmbeddingsService.create_embeddings` |
| `Upload` | upload.dfy | the upload route (routes/file_upload.py) |
| `QuestionAnswering` | question_answering.dfy | `QuestionAnsweringService` |
| `Documents` | documents.dfy | the `Document` table and its class methods (models/models.py) |
| `DeleteRoute` | delete_document.dfy | the delete route (routes/delete_document_route.py) |

The model follows the code where the code and its design description differ:

- The splitter never checks `chunk_size > overlap`. When the step
  `chunk_size - overlap` is not positive, the loop never ends
  (`Splitter.NoProgressWithoutAdvance`), so `SplitText` requires a positive
  step instead of reporting a configuration error.
- An empty extracted text is not rejected when it is extracted. It yields no
  chunks, and the embedder then refuses the empty list with a 500
  (`Upload.EmptyTextFailsUpload`).
- No dimension check is made before adding to the index. A vector of the
  wrong length fails inside faiss, which also becomes a 500.
- The chunk rows are fetched with an SQL `IN` filter. So the context and the
  citations follow the table's order, not the search ranking.
- Every chunk row has a `page` key, so `c.get('page', 'N/A')` prints `None`
  for a missing page, never `N/A`.
- `os.makedirs(os.path.dirname(path))` raises for a path without a directory
  part. So opening a path where no index exists yet, saving, or creating an
  index at such a path fails; an index that already exists there still loads.
- The upload route writes neither to the index nor to the document table. It
  only reports counts.
- The default index path `data/faiss_index.index` is a file. The delete route
  only removes directories, so it leaves that file in place.

## Model

| member | source | states |
|---|---|---|
| Text.Strip | backend/app/services/text_spitter.py:23 | `strip()` returns a contiguous slice of its input; it has no outer white space, and only white space was cut from either end |
| Text.StripEmptyIffAllSpace | backend/app/services/text_spitter.py:23 | a window strips to the empty string exactly when it is all white space |
| Text.StripStripped | backend/app/services/text_extraction.py:38 | stripping is idempotent: a text that is already stripped is returned unchanged |
| Text.Lower | backend/app/utils/file_utils.py:20 | `lower()` restricted to ASCII: it keeps the length and maps each ASCII capital to its small letter; every other character, including non-ASCII capitals, is left alone |
| Text.Join | backend/app/services/question_answering.py:80 | `"\n\n".join`: empty for no parts, the part itself for one, length is the parts plus one separator between neighbours, and it starts with the first part |
| Text.JoinSnoc | backend/app/services/question_answering.py:80 | joining one more part appends exactly the separator and that part |
| Text.IntToString | backend/app/services/question_answering.py:91 | `str(i)` is non-empty, starts with `-` exactly for negatives, and is all digits otherwise; every character after the first is a digit |
| Text.ParseNatToString | backend/app/services/question_answering.py:91 | the decimal spelling of a natural number reads back as that number |
| Text.PadDigitsRoundTrip | backend/app/models/models.py:41 | a zero-padded field of `isoformat` reads back as the number it encodes, whatever the width |
| Text.PySlice | backend/app/services/text_spitter.py:22-23 | Python's `s[lo:hi]`: the ordinary slice for in-range bounds, empty for crossed bounds, the whole sequence for `[0:len]` or more |
| Text.PySliceWithin | backend/app/services/question_answering.py:55 | `indices[:limit]` only holds elements of `indices` |
| Text.WordStart | backend/app/services/question_answering.py:91 | a helper of the citation read-back parser `ParseCitation`, not code of the service: where the run of non-blank characters ending at a position starts: everything from there is non-blank and the character before is a blank |
| Errors.DescribeHttp | backend/app/services/text_extraction.py:24-25 | `str()` of an `HTTPException` inside a rewrapped detail is the status in decimal, `": "` and the detail, and both read back |
| Errors.Rewrap | backend/app/services/text_extraction.py:24-25 | a broad `except` keeps success, and turns every failure into one HTTP error whose detail is the step's prefix followed by `str(e)` of the original |
| Splitter.RawWindow | backend/app/services/text_spitter.py:22 | for a start inside the text, the window is the ordinary slice up to `min(start + chunk_size, len)`, never longer than `chunk_size`; a start at or past the end gives an empty window |
| Splitter.Window | backend/app/services/text_spitter.py:22-23 | the emitted chunk is stripped and no longer than its raw window, hence than `chunk_size` |
| Splitter.SplitText | backend/app/services/text_spitter.py:16-26 | no chunks for an empty text; otherwise chunk `i` is the stripped window at `Start(i)`, and the last window starts inside the text while the next would not |
| Splitter.StartsFrom | backend/app/services/text_spitter.py:20-25 | the window starts the loop visits are the successive multiples of the step below the length, and the first one not visited lies at or past the end |
| Splitter.WindowsAt | backend/app/services/text_spitter.py:22-24 | one stripped window per start, in order |
| Splitter.StartIsMultiple | backend/app/services/text_spitter.py:25 | after `i` rounds the offset is `i * (chunk_size - overlap)` |
| Splitter.ChunkCount | backend/app/services/text_spitter.py:19-26 | the number of chunks is `ceil(len(text) / (chunk_size - overlap))` |
| Splitter.ChunkIsStrippedWindow | backend/app/services/text_spitter.py:22-23 | chunk `i` is `text[i*step : min(i*step + chunk_size, len(text))].strip()`, and its start lies inside the text |
| Splitter.ChunkLengthBound | backend/app/services/text_spitter.py:22-23 | no chunk is longer than `chunk_size` |
| Splitter.WindowsCoverText | backend/app/services/text_spitter.py:21-25 | with `0 <= overlap < chunk_size` every position of the text lies in the raw window of some emitted chunk |
| Splitter.SpaceWindowGivesEmptyChunk | backend/app/services/text_spitter.py:23-24 | a window of only white space is still emitted, as an empty chunk |
| Splitter.ChunkCountDependsOnLengthOnly | backend/app/services/text_spitter.py:21-25 | two texts of the same length give the same number of chunks |
| Splitter.NoProgressWithoutAdvance | backend/app/services/text_spitter.py:25 | when `chunk_size <= overlap` the offset never reaches the end of a non-empty text, so the loop does not terminate |
| Splitter.DefaultScenario | backend/app/services/text_spitter.py:7-26 | the default 800/100 splitter cuts 1700 characters into the windows [0,800), [700,1500) and [1400,1700) |
| Nearest.SqDistZeroIff | backend/app/services/vector_store_faiss.py:63 | the L2 distance is zero exactly for the identical vector |
| Nearest.Distances | backend/app/services/vector_store_faiss.py:63 | one squared distance per stored vector, by handle |
| Nearest.Insert | backend/app/services/vector_store_faiss.py:63 | inserting a handle into a ranked list adds exactly that handle and keeps the list ranked |
| Nearest.Rank | backend/app/services/vector_store_faiss.py:63 | all handles `0..n-1`, each once, ranked by distance then handle |
| Nearest.TopK | backend/app/services/vector_store_faiss.py:63 | `min(k, ntotal)` handles, ranked closest first |
| Nearest.RankedDistinct | backend/app/services/vector_store_faiss.py:63-64 | a ranked list never repeats a handle |
| Nearest.TopKNearest | backend/app/services/vector_store_faiss.py:63 | every handle left out of the hits is at least as far as every hit |
| Nearest.TopKAll | backend/app/services/vector_store_faiss.py:63 | when `k` covers the index every stored handle is returned |
| Nearest.RankedUnique | backend/app/services/vector_store_faiss.py:63 | two ranked lists of the same handles are equal, so the ranking is determined |
| VectorStore.MakeParentDirs | backend/app/services/vector_store_faiss.py:31 | `makedirs(dirname(path))` succeeds exactly when the path has a directory part |
| VectorStore.Open | backend/app/services/vector_store_faiss.py:13-34 | loads the saved index when one exists, otherwise starts an empty index of the given dimension; fails with a 500 "FAISS index load/create failed: ..." when the directory cannot be made, faiss raises (a fault parameter) or the file was left truncated by a failed write, and succeeds exactly otherwise |
| VectorStore.SaveIndex | backend/app/services/vector_store_faiss.py:68-77 | succeeds exactly when an index is loaded, the directory can be made and the write does not fail, and then writes the in-memory index at its path; otherwise a 500 "FAISS index save failed: ...", with the file unchanged when the failure comes before `write_index` opens it and truncated when it comes while writing; no other file ever changes |
| VectorStore.Range | backend/app/services/vector_store_faiss.py:50 | `list(range(lo, hi))`: `hi - lo` consecutive integers from `lo` |
| VectorStore.AddEmbeddings | backend/app/services/vector_store_faiss.py:37-52 | succeeds exactly for a non-empty batch of the index's dimension at a savable path whose write does not fail; it then appends the batch, persists the index, and returns the new handles `ntotal..ntotal+n-1`; the index grows even when the save fails; without an index or with a batch of the wrong dimension it fails with store and disk unchanged; no file but the index path ever changes |
| VectorStore.Search | backend/app/services/vector_store_faiss.py:54-66 | a 500 when no index is loaded or the query is malformed; otherwise `min(top_k, ntotal)` in-range handles with their true distances, in ascending order |
| VectorStore.NearestHits | backend/app/services/vector_store_faiss.py:63-64 | the hits and their distances, aligned position by position and ascending |
| VectorStore.DistancesOf | backend/app/services/vector_store_faiss.py:64 | the distance reported for each hit is that hit's distance |
| VectorStore.SearchReturnsNearest | backend/app/services/vector_store_faiss.py:63 | a stored vector not among the hits is no nearer than any hit |
| VectorStore.SearchHitsDistinct | backend/app/services/vector_store_faiss.py:63-64 | a search never returns the same handle twice |
| VectorStore.SearchFindsStoredVector | backend/app/services/vector_store_faiss.py:63-64 | searching for a stored vector finds it, or an equal one, first at distance 0 |
| VectorStore.SearchEmptyIndex | backend/app/services/vector_store_faiss.py:63-64 | an empty index answers a well-formed query with no hits |
| VectorStore.AddKeepsValid | backend/app/services/vector_store_faiss.py:45-47 | adding keeps every stored vector at the index's dimension |
| VectorStore.OpenValid | backend/app/services/vector_store_faiss.py:26-32 | opening yields a well-formed index when the saved ones are |
| VectorStore.ReopenAfterAdd | backend/app/services/vector_store_faiss.py:23-52 | after a successful add, reopening the path loads the grown index |
| VectorStore.RangeAppend | backend/app/services/vector_store_faiss.py:50 | consecutive handle ranges concatenate into one range |
| VectorStore.AddAllContiguous | backend/app/services/vector_store_faiss.py:46-50 | successive adds hand out one contiguous block of handles, in input order, and the index grows by the total batch size |
| VectorStore.AddGrowsWhenSaveFails | backend/app/services/vector_store_faiss.py:46-52 | when the save fails, the add is a 500 that quotes the save's 500, yet the in-memory index keeps the batch; the file is unchanged when the failure comes before it is opened and truncated when it comes while writing |
| VectorStore.TruncatedIndexDoesNotReopen | backend/app/services/vector_store_faiss.py:23-77 | after an add whose save fails part-way, reopening the index path fails with a 500, whatever index was saved there before |
| VectorStore.CreatedDim | backend/app/services/vector_store_faiss.py:90 | `dimension or len(embeddings[0])`: a given non-zero dimension wins; `None` or `0` falls back to the first vector's length |
| VectorStore.CreateNewIndex | backend/app/services/vector_store_faiss.py:80-101 | a 500 for an empty batch, a dimension mismatch, a path without a directory or a failing write (a fault parameter), a write failing part-way leaving the output file truncated; otherwise exactly the output path is written with the batch, and that path is returned; no other file ever changes |
| VectorStore.CreateNewIndexDefaultDim | backend/app/services/vector_store_faiss.py:90-97 | without a dimension, an index of equal-length vectors takes the first vector's length, and other index files are untouched |
| VectorStore.DefaultStoreScenario | backend/app/services/vector_store_faiss.py:13-50 | a fresh default store is an empty 384-dimensional index; adding 3 then 2 vectors yields handles 0,1,2 then 3,4 |
| FileUtils.RFind | backend/app/utils/file_utils.py:20 | the last position of a character, or -1 when it does not occur |
| FileUtils.SplitExt | backend/app/utils/file_utils.py:20 | `os.path.splitext`: root plus extension is the name; the extension is empty or a dot followed by no dot or slash; it is non-empty exactly when the last path component has a dot after some non-dot character (`HasExtension`) |
| FileUtils.Extension | backend/app/utils/file_utils.py:20-34 | the extension is non-empty exactly when the name has one, and is then a suffix of the name starting at a dot and holding no further dot or slash |
| FileUtils.ValidateFile | backend/app/utils/file_utils.py:14-27 | accepts exactly names whose lower-cased extension is `.pdf` or `.txt` and returns that extension; otherwise a 400 "File validation failed: 400: Unsupported file type: ..." |
| FileUtils.GenerateFilename | backend/app/utils/file_utils.py:29-36 | the new name is the 32-digit id followed by the original extension, case kept |
| FileUtils.SavedPath | backend/app/utils/file_utils.py:46 | the saved file is the generated name under `data/uploads` |
| FileUtils.RFindAppend | backend/app/utils/file_utils.py:20 | a character found in the tail is found at the same place shifted by the head |
| FileUtils.RFindAppendAbsent | backend/app/utils/file_utils.py:20 | a tail without the character does not move its last position |
| FileUtils.ExtensionOfStemPlus | backend/app/utils/file_utils.py:20 | a plain stem followed by a dotted suffix has that suffix as its extension |
| FileUtils.GeneratedNameKeepsExtension | backend/app/utils/file_utils.py:34-36 | the stored name has the same extension as the uploaded one |
| FileUtils.ValidateAcceptsStemPlusExtension | backend/app/utils/file_utils.py:14-25 | a plain stem with `.pdf` or `.txt` in any case is accepted, yielding the lower-cased extension |
| FileUtils.NoDotNoExtension | backend/app/utils/file_utils.py:20-24 | a name without a dot has no extension and is refused with a 400 |
| FileUtils.HiddenFileRejected | backend/app/utils/file_utils.py:20-24 | a leading dot does not start an extension, so `.pdf` is refused |
| FileUtils.UppercaseAccepted | backend/app/utils/file_utils.py:20-36 | `A.PDF` is accepted as `.pdf` and stored as `<id>.PDF` |
| TextExtraction.AfterLastDot | backend/app/services/text_extraction.py:16 | `path.split(".")[-1]` is the dot-free suffix after the last dot, or the whole path |
| TextExtraction.FormatOf | backend/app/services/text_extraction.py:16 | the format is as long as the tail after the last dot, and holds no dot and no ASCII capital |
| TextExtraction.StrippedTxtKept | backend/app/services/text_extraction.py:42-50 | a text file that is already stripped extracts to exactly its contents |
| TextExtraction.ConcatPages | backend/app/services/text_extraction.py:36-37 | the page texts in order, a page without text counting as `""`: the text starts with the first page's text and ends with the last page's (the whole of it is `ConcatPagesIsJoin`) |
| TextExtraction.ExtractPdf | backend/app/services/text_extraction.py:27-40 | succeeds exactly when the reader does; the result is the stripped page concatenation; a failure is a 500 "PDF extraction error: ..." |
| TextExtraction.ExtractTxt | backend/app/services/text_extraction.py:42-50 | succeeds exactly when decoding does; the result is the stripped contents; a failure is a 500 "TXT extraction error: ..." |
| TextExtraction.ExtractText | backend/app/services/text_extraction.py:11-25 | dispatches on the lower-cased last suffix; every failure, including the unsupported-format 400, surfaces as a 500 "Text extraction failed: ..."; a success is stripped |
| TextExtraction.ExtractTextSucceeds | backend/app/services/text_extraction.py:11-25 | extraction succeeds exactly for a `pdf` or `txt` path whose reader succeeds; an all-white-space text file extracts to `""` |
| TextExtraction.ConcatPagesAppend | backend/app/services/text_extraction.py:36-37 | the pages of two page runs concatenate in order |
| TextExtraction.MissingPageIsEmpty | backend/app/services/text_extraction.py:37 | a page without text contributes nothing, like an empty page |
| TextExtraction.ConcatPagesIsJoin | backend/app/services/text_extraction.py:36-37 | the page loop equals `"".join` of the page texts |
| TextExtraction.PageTexts | backend/app/services/text_extraction.py:37 | one text per page, `None` read as `""` |
| TextExtraction.FormatOfSuffix | backend/app/services/text_extraction.py:16 | the format of `dir/stem.ext` is the lower-cased `ext` |
| TextExtraction.AfterLastDotSuffix | backend/app/services/text_extraction.py:16 | a path ending in a dot followed by a dot-free suffix yields that suffix |
| TextExtraction.UnsupportedIsServerError | backend/app/services/text_extraction.py:21-25 | a `.doc` file fails with a 500 whose detail quotes the inner 400 |
| Embeddings.CreateEmbeddings | backend/app/services/embeddings_service.py:19-34 | fails with a 500 exactly for the empty list; otherwise one vector per text, in order, each the model's vector for that text |
| Embeddings.EmbeddingsAppend | backend/app/services/embeddings_service.py:28-32 | embedding is text by text: two lists embedded separately give the embedding of the joined list |
| Upload.LastDotTailIsExtension | backend/app/services/text_extraction.py:16 | for a name with an extension, `path.split(".")[-1]` is exactly the `splitext` extension without its dot |
| Upload.FormatAgreesWithExtension | backend/app/services/text_extraction.py:16 | for a name with an extension, the format `extract_text` dispatches on is the extension `validate_file` checks, without its dot and lower-cased |
| Upload.UploadDocument | backend/app/routes/file_upload.py:10-36 | validation and extraction errors pass through unchanged; a success reports the name, as many embeddings as chunks (at least one), and the first embedding's length |
| Upload.RejectedBeforeExtraction | backend/app/routes/file_upload.py:17-18 | a refused name fails with a 400 whatever the file holds and whatever the model |
| Upload.EmptyTextFailsUpload | backend/app/routes/file_upload.py:24-29 | a text that extracts to `""` fails the upload with the embedder's 500 |
| Upload.UploadCounts | backend/app/routes/file_upload.py:24-36 | a successful upload reports `ceil(len(text) / 700)` chunks and as many embeddings |
| Upload.NonEmptyTextUploads | backend/app/routes/file_upload.py:17-36 | every valid name whose text extracts non-empty uploads successfully |
| Upload.UppercasePdfUpload | backend/app/routes/file_upload.py:17-21 | `A.PDF` is accepted, stored as `<id>.PDF`, read as a PDF, and extracted exactly when its pages can be read |
| Upload.UppercaseFormat | backend/app/routes/file_upload.py:18-21 | the stored copy of `A.PDF` is dispatched to the PDF reader |
| QuestionAnswering.NewQaService | backend/app/services/question_answering.py:23-32 | a store failure passes through; otherwise construction succeeds exactly when the API key is present and non-empty |
| QuestionAnswering.RowsWithIds | backend/app/services/question_answering.py:53-57 | the rows whose id is in the list, no others |
| QuestionAnswering.RowsWithIdsAppend | backend/app/services/question_answering.py:55 | the filter keeps table order: filtering two stretches of the table and concatenating gives the filter of the whole |
| QuestionAnswering.RowsAroundMatch | backend/app/services/question_answering.py:55 | a matching row is fetched after every match in front of it in the table and before every match behind it |
| QuestionAnswering.FetchedRowsAreHits | backend/app/services/question_answering.py:49-57 | every fetched row is in the table and its id is one of the search's handles |
| QuestionAnswering.FetchContext | backend/app/services/question_answering.py:49-66 | a row is fetched exactly when it is in the table and its id is among `indices[:limit]` |
| QuestionAnswering.Citation | backend/app/services/question_answering.py:90-93 | a citation begins with its row's file name and ends with `)` |
| QuestionAnswering.PageLabel | backend/app/services/question_answering.py:91 | a page prints as one non-empty word, and it is `None` exactly for a row without a page |
| QuestionAnswering.ParseIntToString | backend/app/services/question_answering.py:91 | `int(str(i)) == i` for every integer, negative ones included |
| QuestionAnswering.ParsePageLabel | backend/app/services/question_answering.py:91 | a printed page reads back as the page, `None` included |
| QuestionAnswering.CitationRoundTrip | backend/app/services/question_answering.py:90-93 | a citation reads back, from the right, as exactly its row's file name, chunk id and page, whatever the file name holds |
| QuestionAnswering.ContextText | backend/app/services/question_answering.py:80 | the context is empty without rows; otherwise it starts with the first row's text and is as long as all texts plus one separator between neighbours |
| QuestionAnswering.Texts | backend/app/services/question_answering.py:80 | the text of each fetched row, in order |
| QuestionAnswering.Citations | backend/app/services/question_answering.py:90-93 | one citation per fetched row, in the same order |
| QuestionAnswering.AnswerQuestion | backend/app/services/question_answering.py:68-98 | a search error passes through; a failing chunk query raises its own error unwrapped; otherwise the model is asked about the fetched context, and its error passes through or its stripped reply is returned with the question and one citation per fetched row |
| QuestionAnswering.CitationsMatchRows | backend/app/services/question_answering.py:90-93 | citation `i` starts with the file name of fetched row `i` |
| QuestionAnswering.ContextGrows | backend/app/services/question_answering.py:80 | one more fetched row appends the separator and its text to the context |
| QuestionAnswering.NoMatchesStillAsks | backend/app/services/question_answering.py:76-98 | when no hit has a row, the model is asked with an empty context and the answer cites nothing |
| QuestionAnswering.NoRowsFetched | backend/app/services/question_answering.py:53-57 | no row is fetched when no row id is among the hits |
| QuestionAnswering.FetchContextExact | backend/app/services/question_answering.py:55 | a row is fetched exactly when its id is one of the first `limit` handles |
| QuestionAnswering.FetchContextBound | backend/app/services/question_answering.py:53-57 | with ids as primary key, a fetch returns each row once and at most `limit` rows |
| Documents.IsoFormat | backend/app/models/models.py:41 | `isoformat()` is 19 characters, or 26 when there are microseconds |
| Documents.IsoFormatRoundTrip | backend/app/models/models.py:41 | the listed timestamp reads back as the same date and time |
| Documents.FitsWidth | backend/app/models/models.py:41 | a number below `10^w` pads to exactly `w` digits |
| Documents.Entry | backend/app/models/models.py:37-46 | a listing entry copies id, name, chunk count (possibly `None`) and index path, and gives the upload time in ISO form, or `None` when absent |
| Documents.ListDocuments | backend/app/models/models.py:26-48 | a database failure is a 500 "Failed to list documents: ..."; otherwise exactly one entry per record, and none for an empty table |
| Documents.Listing | backend/app/models/models.py:37-46 | the entries are exactly those of the stored records |
| Documents.ListingSize | backend/app/models/models.py:37-46 | the listing has as many entries as there are records |
| Documents.ListingRemove | backend/app/models/models.py:37-46 | removing a record removes exactly its entry from the listing |
| Documents.GetMetadata | backend/app/models/models.py:83-102 | a database failure is a 500, an unknown id a 404 "Document not found.", otherwise the stored record |
| Documents.DeleteMetadata | backend/app/models/models.py:52-79 | succeeds exactly for a known id without a database fault, removing that record; every failure leaves the table as it was; the 404 passes through and other faults become a 500 |
| Documents.DeleteRemovesOnlyThatKey | backend/app/models/models.py:68-69 | a delete removes one record, keeps every other record unchanged, and shrinks the table by one |
| Documents.DeleteTwice | backend/app/models/models.py:63-72 | deleting the same id again is a 404 and changes nothing |
| Documents.DeleteThenGet | backend/app/models/models.py:52-102 | after a delete the record is neither found nor listed |
| DeleteRoute.RemoveTree | backend/app/routes/delete_document_route.py:30 | `rmtree(p)` removes `p` and everything below it, and nothing else |
| DeleteRoute.DeleteDocument | backend/app/routes/delete_document_route.py:14-41 | succeeds exactly when the lookup, the directory removal (if any) and the delete all succeed; lookup errors pass through untouched; an `rmtree` failure is a 500 with nothing changed; otherwise the table and answer are those of the delete, and only an existing index directory is removed |
| DeleteRoute.UnknownIdTouchesNothing | backend/app/routes/delete_document_route.py:24 | an unknown id is a 404 before anything is removed |
| DeleteRoute.IndexRemovedEvenIfRecordStays | backend/app/routes/delete_document_route.py:27-34 | the route is not atomic: when the commit fails, the index directory is already gone although the record stays |
| DeleteRoute.RemovesOnlyTheIndexTree | backend/app/routes/delete_document_route.py:27-30 | paths outside the index directory are untouched |
| DeleteRoute.DiskChangesIffRemovesIndex | backend/app/routes/delete_document_route.py:27-30 | when nothing fails, the disk changes exactly when the record's index path is set, non-empty and names an existing directory |
| DeleteRoute.IndexFileIsKept | backend/app/routes/delete_document_route.py:27-29 | an index path that is a file, or no path, leaves the disk unchanged while the record is still deleted |
| DeleteRoute.DeleteIsFinal | backend/app/routes/delete_document_route.py:24-36 | after a successful delete the document is not listed, and deleting it again is a 404 |

## Left out

- The frontend, the application entry point and the router wiring are left out: they hold no logic of the core.
- The list route's 404 for an empty table is left out. It lies outside the table's own methods, which return `[]`.
- The database engine, the session factory and the metadata service are not part of this model.
- The question-answering service imports `DocumentChunk` from models/models.py, which does not define it, and `load_config` from utils/database.py, where it is commented out. The chunk table is therefore a list of rows, and the API key is a parameter.
- Floating-point vectors are replaced by integer vectors with exact squared L2 distances.
- VectorStore.Search — faiss pads a result shorter than `top_k` with handle `-1` and distance `FLT_MAX` (for an empty index, `top_k` such entries); the model returns only the `min(top_k, ntotal)` real hits, so `SearchEmptyIndex` gives no hits where faiss gives padding. The model assumes that no stored chunk row has id `-1` (the chunk table is not defined in the code); under that assumption the fetched context is the same.
- A `top_k` of zero or less is modelled as a faiss failure (a 500).
- The PDF reader, file decoding and `save_file`'s write are modelled only through their results. A saved file's contents are a parameter, and `save_file`'s own 500 is not modelled.
- `uuid4()` and `utcnow()` are parameters (a 32-hex-digit id, a `DateTime` value).
- Concurrency and the framework's request handling are left out.
- `pathlib.Path` normalisation of the index path is left out. Paths are compared as strings.
- The prompt template and the language model are a parameter `llm(context, question)`, which returns the reply's content or the error it raised.
- Loading the embedding model, and its 500 on failure, is left out. The model is a function from text to vector.
- The `extra_metadata` JSON column is left out.
- The row order of `list_documents` is unspecified by its query, so the listing is a set.
- `shutil.rmtree` either removes the whole tree or fails having removed nothing. Partial removal is not modelled.
- The splitter's `except` that would rewrap an error as `ValueError` is left out: with string input and integer sizes nothing in its body raises.
- The exact texts of exceptions raised inside numpy, faiss, the PDF reader and the database are not modelled. They are the fault parameters' messages, and `UnreadableIndex` stands for faiss's error on a truncated file; only the prefixes the code adds are exact.
- Text.Lower — only ASCII case mapping is modelled. Python's `lower()` also maps non-ASCII capitals (`É` to `é`), so for a name such as `a.PDÉ` the extension quoted in the 400 of `ValidateFile`, and the format quoted by `ExtractText`, keep the capital in the model. Acceptance is unaffected, since only the ASCII `pdf` and `txt` are allowed.

=== FILE: delete_document.dfy ===
/** The `DELETE /{document_id}` route (routes/delete_document_route.py):
    look the record up, remove its FAISS index directory from disk if it
    has one, then delete the record. The disk is a set of directories and
    a set of regular files; where the database or `shutil.rmtree` raises
    is a parameter. */
module DeleteRoute {
  import opened Errors
  import opened Documents

  const DeleteFailed: string := "Failed to delete document"

  /** The paths on disk: directories and regular files. */
  datatype FileSystem = FileSystem(dirs: set<string>, files: set<string>) {
    predicate IsDir(p: string) {
      p in dirs
    }
  }

  /** `q` is `p` or lies below it. */
  predicate Under(p: string, q: string) {
    q == p || (|q| > |p| && q[..|p| + 1] == p + "/")
  }

  /** `shutil.rmtree(p)`: `p` and everything below it disappear; nothing
      else is touched. */
  function RemoveTree(fs: FileSystem, p: string): (after: FileSystem)
    ensures forall d :: d in after.dirs <==> d in fs.dirs && !Under(p, d)
    ensures forall f :: f in after.files <==> f in fs.files && !Under(p, f)
    ensures !after.IsDir(p)
  {
    FileSystem(set d | d in fs.dirs && !Under(p, d), set f | f in fs.files && !Under(p, f))
  }

  /** The table, the disk and the answer after the route ran. */
  datatype RouteOutcome = RouteOutcome(db: DocTable, fs: FileSystem, result: Result<Deleted>)

  /** The directory the route removes for `doc`: its FAISS path when that
      is set, not empty, and names an existing directory. */
  predicate RemovesIndex(doc: Document, fs: FileSystem) {
    doc.faissIndexPath.Some? && doc.faissIndexPath.value != "" && fs.IsDir(doc.faissIndexPath.value)
  }

  /** `delete_document`. `getFault` and `deleteFault` say where the
      database raises, `rmtreeFault` whether removing the directory does.
      `get_metadata` and `delete_metadata` only raise `HTTPException`s,
      which the route passes on unchanged; a failing `rmtree` becomes a
      500. Removing the directory is not undone when deleting the record
      then fails. */
  function DeleteDocument(db: DocTable, fs: FileSystem, id: string,
                          getFault: Option<string>, rmtreeFault: Option<string>, deleteFault: DbFault): (out: RouteOutcome)
    ensures out.result.Ok? <==>
      getFault.None? && id in db && !(RemovesIndex(db[id], fs) && rmtreeFault.Some?) && deleteFault.NoFault?
    ensures out.result.Ok? ==> out.result.value == Deleted("deleted", id) && out.db == db - {id}
    ensures GetMetadata(db, id, getFault).Err? ==>
      out == RouteOutcome(db, fs, Err(GetMetadata(db, id, getFault).error))
    ensures getFault.None? && id in db && RemovesIndex(db[id], fs) && rmtreeFault.Some? ==>
      out == RouteOutcome(db, fs, Err(HttpException(500, DeleteFailed + ": " + rmtreeFault.value)))
    ensures getFault.None? && id in db && !(RemovesIndex(db[id], fs) && rmtreeFault.Some?) ==>
      && out.db == DeleteMetadata(db, id, deleteFault).db
      && out.result == DeleteMetadata(db, id, deleteFault).result
      && out.fs == (if RemovesIndex(db[id], fs) then RemoveTree(fs, db[id].faissIndexPath.value) else fs)
  {
    match GetMetadata(db, id, getFault)
    case Err(e) => RouteOutcome(db, fs, Err(e))
    case Ok(doc) =>
      if RemovesIndex(doc, fs) && rmtreeFault.Some? then
        RouteOutcome(db, fs, Rewrap(Err(LibraryError(rmtreeFault.value)), 500, DeleteFailed))
      else
        var fs' := if RemovesIndex(doc, fs) then RemoveTree(fs, doc.faissIndexPath.value) else fs;
        var deleted := DeleteMetadata(db, id, deleteFault);
        RouteOutcome(deleted.db, fs', deleted.result)
  }

  /** When nothing fails, the route changes the disk exactly when the
      record's index path names an existing directory. */
  lemma DiskChangesIffRemovesIndex(db: DocTable, fs: FileSystem, id: string, deleteFault: DbFault)
    requires id in db
    ensures DeleteDocument(db, fs, id, None, None, deleteFault).fs != fs <==> RemovesIndex(db[id], fs)
  {
  }

  /** An unknown id is a 404 before anything is touched. */
  lemma UnknownIdTouchesNothing(db: DocTable, fs: FileSystem, id: string, rmtreeFault: Option<string>, deleteFault: DbFault)
    requires id !in db
    ensures DeleteDocument(db, fs, id, None, rmtreeFault, deleteFault) ==
      RouteOutcome(db, fs, Err(HttpException(404, NotFound)))
  {
  }

  /** The route is not atomic: when the commit fails, the index directory
      is already gone although the record stays. */
  lemma IndexRemovedEvenIfRecordStays(db: DocTable, fs: FileSystem, id: string, msg: string)
    requires id in db && RemovesIndex(db[id], fs)
    ensures var out := DeleteDocument(db, fs, id, None, None, CommitFault(msg));
      && out.result == Err(HttpException(500, "Failed to delete metadata: " + msg))
      && out.db == db
      && !out.fs.IsDir(db[id].faissIndexPath.value)
  {
  }

  /** Only the index directory and what lies below it is removed. */
  lemma RemovesOnlyTheIndexTree(db: DocTable, fs: FileSystem, id: string, p: string)
    requires id in db && !Under(db[id].faissIndexPath.GetOr(""), p)
    ensures var out := DeleteDocument(db, fs, id, None, None, NoFault);
      (p in out.fs.dirs <==> p in fs.dirs) && (p in out.fs.files <==> p in fs.files)
  {
  }

  /** A FAISS path naming a regular file (the shape `FaissVectorStore`
      writes, `data/faiss_index.index`) or nothing at all is left in place:
      the route removes directories only. */
  lemma IndexFileIsKept(db: DocTable, fs: FileSystem, id: string, rmtreeFault: Option<string>)
    requires id in db && !RemovesIndex(db[id], fs)
    ensures var out := DeleteDocument(db, fs, id, None, rmtreeFault, NoFault);
      out.fs == fs && out.result == Ok(Deleted("deleted", id)) && out.db == db - {id}
  {
  }

  /** After a successful delete the document is gone from the listing, and
      deleting it again is a 404. */
  lemma DeleteIsFinal(db: DocTable, fs: FileSystem, id: string)
    requires DeleteDocument(db, fs, id, None, None, NoFault).result.Ok?
    ensures var out := DeleteDocument(db, fs, id, None, None, NoFault);
      && (forall e :: e in Listing(out.db) ==> e.documentId != id)
      && DeleteDocument(out.db, out.fs, id, None, None, NoFault).result == Err(HttpException(404, NotFound))
  {
  }
}

=== FILE: documents.dfy ===
/** The document table (`Document` in models/models.py): metadata records
    keyed by document id, and the three class methods that read and delete
    them. A database failure is a parameter saying where, if anywhere, the
    database raised. */
module Documents {
  import opened Text
  import opened Errors

  /** A naive `datetime.datetime` (what `utcnow()` stores). */
  datatype DateTime = DateTime(year: nat, month: nat, day: nat, hour: nat, minute: nat, second: nat, microsecond: nat) {
    /** The field ranges Python's `datetime` enforces. */
    predicate Valid() {
      && 1 <= year <= 9999 && 1 <= month <= 12 && 1 <= day <= 31
      && hour < 24 && minute < 60 && second < 60 && microsecond < 1000000
    }
  }

  /** `dt.isoformat()`: `YYYY-MM-DDTHH:MM:SS`, followed by `.ffffff` only
      when the microseconds are not zero. */
  function IsoFormat(dt: DateTime): (s: string)
    ensures dt.Valid() ==> |s| == (if dt.microsecond == 0 then 19 else 26)
  {
    FitsWidth(dt.year, 4);
    FitsWidth(dt.month, 2);
    FitsWidth(dt.day, 2);
    FitsWidth(dt.hour, 2);
    FitsWidth(dt.minute, 2);
    FitsWidth(dt.second, 2);
    FitsWidth(dt.microsecond, 6);
    var base := Stamp(PadDigits(dt.year, 4), PadDigits(dt.month, 2), PadDigits(dt.day, 2),
      PadDigits(dt.hour, 2), PadDigits(dt.minute, 2), PadDigits(dt.second, 2));
    if dt.microsecond == 0 then base else base + "." + PadDigits(dt.microsecond, 6)
  }

  /** The date and time fields with their separators. */
  function Stamp(y: string, mo: string, d: string, h: string, mi: string, se: string): (s: string)
    ensures |s| == |y| + |mo| + |d| + |h| + |mi| + |se| + 5
  {
    y + "-" + mo + "-" + d + "T" + h + ":" + mi + ":" + se
  }

  /** Where each field and separator of a stamp sits, given the widths. */
  lemma StampLayout(y: string, mo: string, d: string, h: string, mi: string, se: string)
    requires |y| == 4 && |mo| == 2 && |d| == 2 && |h| == 2 && |mi| == 2 && |se| == 2
    ensures var s := Stamp(y, mo, d, h, mi, se);
      && s[0..4] == y && s[4] == '-' && s[5..7] == mo && s[7] == '-' && s[8..10] == d && s[10] == 'T'
      && s[11..13] == h && s[13] == ':' && s[14..16] == mi && s[16] == ':' && s[17..19] == se
  {
    var s := Stamp(y, mo, d, h, mi, se);
    var p1 := y + "-";
    var p2 := p1 + mo + "-";
    var p3 := p2 + d + "T";
    var p4 := p3 + h + ":";
    var p5 := p4 + mi + ":";
    assert s == p5 + se;
    assert s[..17] == p5;
    assert s[..14] == p5[..14] == p4;
    assert s[..11] == p4[..11] == p3;
    assert s[..8] == p3[..8] == p2;
    assert s[..5] == p2[..5] == p1;
    Slice(s, s, 17, se);
    Slice(s, p5, 14, mi + ":");
    Slice(s, p4, 11, h + ":");
    Slice(s, p3, 8, d + "T");
    Slice(s, p2, 5, mo + "-");
    Slice(s, p1, 0, y + "-");
  }

  function Pow10(w: nat): (p: nat)
    ensures p >= 1
  {
    if w == 0 then 1 else 10 * Pow10(w - 1)
  }

  /** A number below `10^w` needs at most `w` digits, so padding it to `w`
      gives exactly `w` characters. */
  lemma {:induction false} FitsWidth(n: nat, w: nat)
    ensures 1 <= w && n < Pow10(w) ==> |PadDigits(n, w)| == w
    decreases n
  {
    if 1 <= w && n < Pow10(w) && n >= 10 {
      assert w >= 2 by {
        assert Pow10(1) == 10;
      }
      assert n / 10 < Pow10(w - 1);
      FitsWidth(n / 10, w - 1);
    }
  }

  /** Reads the `w` digits at `lo` of `s`, if they are all digits. */
  function DigitsAt(s: string, lo: nat, w: nat): Option<nat> {
    if lo + w <= |s| && AllDigits(s[lo..lo + w]) then Some(ParseDigits(s[lo..lo + w])) else None
  }

  /** Reads back a timestamp in the shape `isoformat` writes. */
  function ParseIso(s: string): Option<DateTime> {
    if !(|s| == 19 || (|s| == 26 && s[19] == '.')) then None
    else if s[4] != '-' || s[7] != '-' || s[10] != 'T' || s[13] != ':' || s[16] != ':' then None
    else
      match (DigitsAt(s, 0, 4), DigitsAt(s, 5, 2), DigitsAt(s, 8, 2), DigitsAt(s, 11, 2),
             DigitsAt(s, 14, 2), DigitsAt(s, 17, 2), if |s| == 26 then DigitsAt(s, 20, 6) else Some(0))
      case (Some(y), Some(mo), Some(d), Some(h), Some(mi), Some(se), Some(us)) =>
        Some(DateTime(y, mo, d, h, mi, se, us))
      case _ => None
  }

  lemma ReadPadded(s: string, lo: nat, n: nat, w: nat)
    requires lo + w <= |s| && s[lo..lo + w] == PadDigits(n, w)
    ensures DigitsAt(s, lo, w) == Some(n)
  {
    PadDigitsRoundTrip(n, w);
  }

  /** `isoformat` loses nothing: the written timestamp reads back as the
      same date and time. */
  lemma IsoFormatRoundTrip(dt: DateTime)
    requires dt.Valid()
    ensures ParseIso(IsoFormat(dt)) == Some(dt)
  {
    var s := IsoFormat(dt);
    IsoLayout(dt);
    ReadPadded(s, 0, dt.year, 4);
    ReadPadded(s, 5, dt.month, 2);
    ReadPadded(s, 8, dt.day, 2);
    ReadPadded(s, 11, dt.hour, 2);
    ReadPadded(s, 14, dt.minute, 2);
    ReadPadded(s, 17, dt.second, 2);
    if dt.microsecond != 0 {
      ReadPadded(s, 20, dt.microsecond, 6);
    }
    ParseIsoFields(s, dt);
  }

  /** Where each field and separator of an `isoformat` string sits. */
  lemma IsoLayout(dt: DateTime)
    requires dt.Valid()
    ensures var s := IsoFormat(dt);
      && |s| == (if dt.microsecond == 0 then 19 else 26)
      && s[0..4] == PadDigits(dt.year, 4) && s[4] == '-'
      && s[5..7] == PadDigits(dt.month, 2) && s[7] == '-'
      && s[8..10] == PadDigits(dt.day, 2) && s[10] == 'T'
      && s[11..13] == PadDigits(dt.hour, 2) && s[13] == ':'
      && s[14..16] == PadDigits(dt.minute, 2) && s[16] == ':'
      && s[17..19] == PadDigits(dt.second, 2)
      && (dt.microsecond != 0 ==> s[19] == '.' && s[20..26] == PadDigits(dt.microsecond, 6))
  {
    FitsWidth(dt.year, 4);
    FitsWidth(dt.month, 2);
    FitsWidth(dt.day, 2);
    FitsWidth(dt.hour, 2);
    FitsWidth(dt.minute, 2);
    FitsWidth(dt.second, 2);
    FitsWidth(dt.microsecond, 6);
    var s := IsoFormat(dt);
    var base := Stamp(PadDigits(dt.year, 4), PadDigits(dt.month, 2), PadDigits(dt.day, 2),
      PadDigits(dt.hour, 2), PadDigits(dt.minute, 2), PadDigits(dt.second, 2));
    StampLayout(PadDigits(dt.year, 4), PadDigits(dt.month, 2), PadDigits(dt.day, 2),
      PadDigits(dt.hour, 2), PadDigits(dt.minute, 2), PadDigits(dt.second, 2));
    assert s[..19] == base;
    Slice(s, base, 0, base);
    if dt.microsecond != 0 {
      assert s == base + "." + PadDigits(dt.microsecond, 6);
      assert s[20..26] == PadDigits(dt.microsecond, 6);
    }
  }

  /** A piece ending a prefix of `s` sits at its offset in `s`. */
  lemma Slice(s: string, prefix: string, lo: nat, piece: string)
    requires |prefix| <= |s| && s[..|prefix|] == prefix
    requires lo + |piece| == |prefix| && prefix[lo..] == piece
    ensures s[lo..lo + |piece|] == piece
  {
    assert s[lo..lo + |piece|] == s[..|prefix|][lo..];
  }

  /** `ParseIso` reads the fields of a string laid out as `isoformat` writes. */
  lemma ParseIsoFields(s: string, dt: DateTime)
    requires |s| == (if dt.microsecond == 0 then 19 else 26)
    requires s[4] == '-' && s[7] == '-' && s[10] == 'T' && s[13] == ':' && s[16] == ':'
    requires DigitsAt(s, 0, 4) == Some(dt.year) && DigitsAt(s, 5, 2) == Some(dt.month)
    requires DigitsAt(s, 8, 2) == Some(dt.day) && DigitsAt(s, 11, 2) == Some(dt.hour)
    requires DigitsAt(s, 14, 2) == Some(dt.minute) && DigitsAt(s, 17, 2) == Some(dt.second)
    requires dt.microsecond != 0 ==> s[19] == '.' && DigitsAt(s, 20, 6) == Some(dt.microsecond)
    ensures ParseIso(s) == Some(dt)
  {
  }

  /** A row of the `documents` table; its id is the key it is stored under.
      The free-form `extra_metadata` column is not modelled. Every column but
      the file name is nullable, so a chunk count may be SQL `NULL`. */
  datatype Document = Document(
    filename: string,
    uploadedAt: Option<DateTime>,
    chunkCount: Option<int>,
    faissIndexPath: Option<string>)

  type DocTable = map<string, Document>

  const NotFound: string := "Document not found."

  /** One element of the `list_documents` answer. */
  datatype ListEntry = ListEntry(
    documentId: string,
    filename: string,
    uploadedAt: Option<string>,
    chunkCount: Option<int>,
    faissIndexPath: Option<string>)

  function Entry(id: string, d: Document): (e: ListEntry)
    ensures e.documentId == id && e.filename == d.filename && e.chunkCount == d.chunkCount
    ensures e.faissIndexPath == d.faissIndexPath
    ensures e.uploadedAt.Some? <==> d.uploadedAt.Some?
    ensures d.uploadedAt.Some? ==> e.uploadedAt.value == IsoFormat(d.uploadedAt.value)
  {
    ListEntry(id, d.filename,
      match d.uploadedAt case Some(t) => Some(IsoFormat(t)) case None => None,
      d.chunkCount, d.faissIndexPath)
  }

  /** `list_documents`: one entry per record, `[]` for an empty table. The
      query's row order is unspecified, so the answer is a set. `fault` is
      the error the query raised, if any. */
  function ListDocuments(db: DocTable, fault: Option<string>): (r: Result<set<ListEntry>>)
    ensures fault.Some? ==> r == Err(HttpException(500, "Failed to list documents: " + fault.value))
    ensures fault.None? ==> r.Ok?
    ensures r.Ok? ==> forall e :: e in r.value <==> e.documentId in db && e == Entry(e.documentId, db[e.documentId])
    ensures r.Ok? && db == map[] ==> r.value == {}
  {
    match fault
    case Some(m) => Rewrap(Err(LibraryError(m)), 500, "Failed to list documents")
    case None => Ok(Listing(db))
  }

  function Listing(db: DocTable): (entries: set<ListEntry>)
    ensures forall e :: e in entries <==> e.documentId in db && e == Entry(e.documentId, db[e.documentId])
  {
    set id | id in db :: Entry(id, db[id])
  }

  /** The listing has exactly one entry per document. */
  lemma {:induction false} ListingSize(db: DocTable)
    ensures |Listing(db)| == |db|
    decreases |db|
  {
    if db != map[] {
      var k :| k in db;
      var rest := db - {k};
      ListingSize(rest);
      ListingRemove(db, k);
      assert |db| == |rest| + 1 by {
        assert db.Keys == rest.Keys + {k};
      }
    }
  }

  /** Removing a record removes exactly its entry from the listing. */
  lemma ListingRemove(db: DocTable, k: string)
    requires k in db
    ensures Listing(db) == Listing(db - {k}) + {Entry(k, db[k])}
    ensures Entry(k, db[k]) !in Listing(db - {k})
  {
    var rest := db - {k};
    forall e | e in Listing(db)
      ensures e in Listing(rest) + {Entry(k, db[k])}
    {
      if e.documentId != k {
        assert e.documentId in rest;
      }
    }
  }

  /** `get_metadata`: the record stored under `id`, or a 404. */
  function GetMetadata(db: DocTable, id: string, fault: Option<string>): (r: Result<Document>)
    ensures fault.Some? ==> r == Err(HttpException(500, "Failed to get metadata: " + fault.value))
    ensures fault.None? && id !in db ==> r == Err(HttpException(404, NotFound))
    ensures fault.None? && id in db ==> r == Ok(db[id])
  {
    match fault
    case Some(m) => Rewrap(Err(LibraryError(m)), 500, "Failed to get metadata")
    case None => if id in db then Ok(db[id]) else Err(HttpException(404, NotFound))
  }

  /** Where the database raises while deleting: on the lookup, on the
      commit, or not at all. */
  datatype DbFault = NoFault | QueryFault(message: string) | CommitFault(message: string)

  /** The confirmation `{"status": "deleted", "document_id": id}`. */
  datatype Deleted = Deleted(status: string, documentId: string)

  /** The table after `delete_metadata`, and its outcome. */
  datatype DeleteOutcome = DeleteOutcome(db: DocTable, result: Result<Deleted>)

  /** `delete_metadata`: removes the record stored under `id`. A 404 passes
      through; any other failure rolls the session back and becomes a 500. */
  function DeleteMetadata(db: DocTable, id: string, fault: DbFault): (out: DeleteOutcome)
    ensures out.result.Ok? <==> fault.NoFault? && id in db
    ensures out.result.Ok? ==> out.result.value == Deleted("deleted", id) && out.db == db - {id}
    ensures out.result.Err? ==> out.db == db
    ensures !fault.QueryFault? && id !in db ==> out.result == Err(HttpException(404, NotFound))
    ensures fault.QueryFault? ==> out.result == Err(HttpException(500, "Failed to delete metadata: " + fault.message))
    ensures fault.CommitFault? && id in db ==>
      out.result == Err(HttpException(500, "Failed to delete metadata: " + fault.message))
  {
    if fault.QueryFault? then
      DeleteOutcome(db, Rewrap(Err(LibraryError(fault.message)), 500, "Failed to delete metadata"))
    else if id !in db then
      DeleteOutcome(db, Err(HttpException(404, NotFound)))
    else if fault.CommitFault? then
      DeleteOutcome(db, Rewrap(Err(LibraryError(fault.message)), 500, "Failed to delete metadata"))
    else
      DeleteOutcome(db - {id}, Ok(Deleted("deleted", id)))
  }

  /** A delete removes exactly one record: every other record is kept as
      it was, and the table shrinks by one. */
  lemma DeleteRemovesOnlyThatKey(db: DocTable, id: string, other: string)
    requires id in db && other != id
    ensures var out := DeleteMetadata(db, id, NoFault);
      && id !in out.db
      && (other in out.db <==> other in db)
      && (other in db ==> out.db[other] == db[other])
      && |out.db| == |db| - 1
  {
    var out := DeleteMetadata(db, id, NoFault);
    assert db.Keys == out.db.Keys + {id};
  }

  /** Deleting the same id twice: the second delete is a 404 and changes
      nothing. */
  lemma DeleteTwice(db: DocTable, id: string)
    requires id in db
    ensures var first := DeleteMetadata(db, id, NoFault);
      var second := DeleteMetadata(first.db, id, NoFault);
      second.result == Err(HttpException(404, NotFound)) && second.db == first.db
  {
  }

  /** After a delete the record is gone from the listing and from lookups. */
  lemma DeleteThenGet(db: DocTable, id: string)
    requires DeleteMetadata(db, id, NoFault).result.Ok?
    ensures GetMetadata(DeleteMetadata(db, id, NoFault).db, id, None) == Err(HttpException(404, NotFound))
    ensures forall e :: e in Listing(DeleteMetadata(db, id, NoFault).db) ==> e.documentId != id
  {
  }
}

=== FILE: embeddings.dfy ===
/** The sentence-embedding service (`EmbeddingsService.create_embeddings` in
    services/embeddings_service.py). The model itself is a parameter: a
    function from a text to its vector. */
module Embeddings {
  import opened Errors
  import opened Nearest

  const EmbeddingFailed: string := "Embedding generation failed"
  const EmptyTexts: string := "Text list cannot be empty."

  /** One vector per text, in order; an empty list is refused with a 500. */
  function CreateEmbeddings(model: string -> Vector, texts: seq<string>): (r: Result<seq<Vector>>)
    ensures r.Err? <==> texts == []
    ensures r.Err? ==> r.error == HttpException(500, EmbeddingFailed + ": " + EmptyTexts)
    ensures r.Ok? ==> |r.value| == |texts|
    ensures r.Ok? ==> forall i :: 0 <= i < |texts| ==> r.value[i] == model(texts[i])
  {
    if texts == [] then
      Rewrap(Err(ValueError(EmptyTexts)), 500, EmbeddingFailed)
    else
      Ok(seq(|texts|, i requires 0 <= i < |texts| => model(texts[i])))
  }

  /** Embedding is done text by text: embedding two lists one after the
      other gives the embeddings of the joined list. */
  lemma EmbeddingsAppend(model: string -> Vector, a: seq<string>, b: seq<string>)
    requires a != [] && b != []
    ensures CreateEmbeddings(model, a + b) ==
      Ok(CreateEmbeddings(model, a).value + CreateEmbeddings(model, b).value)
  {
    assert a + b != [] by {
      assert |a + b| == |a| + |b|;
    }
    var ab := CreateEmbeddings(model, a + b).value;
    var joined := CreateEmbeddings(model, a).value + CreateEmbeddings(model, b).value;
    assert |ab| == |joined|;
    forall i | 0 <= i < |ab|
      ensures ab[i] == joined[i]
    {
      if i < |a| {
        assert (a + b)[i] == a[i];
      } else {
        assert (a + b)[i] == b[i - |a|];
      }
    }
    assert ab == joined;
  }
}

=== FILE: errors.dfy ===
/** The exceptions the backend raises and the `Result` type every fallible
    operation of the model returns in their place. */
module Errors {
  import opened Text

  datatype Option<+T> = None | Some(value: T) {
    function GetOr(default: T): T {
      match this
      case Some(v) => v
      case None => default
    }
  }

  /** The exception kinds the backend raises or lets through. A
      `LibraryError` stands for an exception raised inside numpy, faiss, the
      PDF reader or the database; its text is not modelled word for word. */
  datatype Exception =
    | HttpException(status: int, detail: string)
    | ValueError(message: string)
    | LibraryError(message: string)
  {
    /** Python's `str(e)`; the web framework renders an HTTP exception as
        `"<status>: <detail>"`. */
    function Describe(): string {
      match this
      case HttpException(status, detail) => IntToString(status) + ": " + detail
      case ValueError(message) => message
      case LibraryError(message) => message
    }

    predicate IsHttp(status: int) {
      HttpException? && this.status == status
    }
  }

  /** `str()` of an `HTTPException`, as it appears inside a rewrapped
      detail: the status in decimal, `": "`, then the detail; both read back. */
  lemma DescribeHttp(status: nat, detail: string)
    ensures var s := HttpException(status, detail).Describe();
      var n := |s| - |detail| - 2;
      && n >= 1 && AllDigits(s[..n]) && ParseDigits(s[..n]) == status
      && s[n..n + 2] == ": " && s[n + 2..] == detail
  {
    var d := NatToString(status);
    var s := HttpException(status, detail).Describe();
    assert s == d + ": " + detail;
    assert s[..|d|] == d;
    assert s[|d|..|d| + 2] == ": ";
    assert s[|d| + 2..] == detail;
    ParseNatToString(status);
  }

  datatype Result<+T> = Ok(value: T) | Err(error: Exception) {
    predicate IsFailure() {
      Err?
    }

    function PropagateFailure<U>(): Result<U>
      requires Err?
    {
      Err(error)
    }

    function Extract(): T
      requires Ok?
    {
      value
    }
  }

  /** A broad `except Exception as e: raise HTTPException(status, f"{prefix}: {e}")`
      around a step: success passes through, every failure, whatever its
      kind, is replaced by one HTTP error whose detail names the step and
      then quotes the original. */
  function Rewrap<T>(r: Result<T>, status: int, prefix: string): (w: Result<T>)
    ensures r.Ok? <==> w.Ok?
    ensures r.Ok? ==> w == r
    ensures r.Err? ==> w.error.IsHttp(status)
    ensures r.Err? ==> w.error.detail == prefix + ": " + r.error.Describe()
  {
    match r
    case Ok(v) => Ok(v)
    case Err(e) => Err(HttpException(status, prefix + ": " + e.Describe()))
  }
}

=== FILE: file_utils.dfy ===
/** Upload file names (`FileUtils` in utils/file_utils.py): the extension
    test of `validate_file` and the stored name of `generate_filename`, on
    top of a model of POSIX `os.path.splitext`. */
module FileUtils {
  import opened Text
  import opened Errors

  const AllowedExtensions: set<string> := {".pdf", ".txt"}
  const UploadDir: string := "data/uploads"
  const ValidationFailed: string := "File validation failed"
  const UnsupportedType: string := "Unsupported file type: "

  /** `s.rfind(c)`: the last position of `c`, or -1 when there is none. */
  function RFind(s: string, c: char): (i: int)
    ensures -1 <= i < |s|
    ensures i >= 0 ==> s[i] == c
    ensures forall k :: i < k < |s| ==> s[k] != c
  {
    if s == [] then -1
    else if s[|s| - 1] == c then |s| - 1
    else RFind(s[..|s| - 1], c)
  }

  /** Some character of `p[lo..hi]` is not a dot. */
  predicate HasNonDot(p: string, lo: int, hi: int)
    requires 0 <= lo && hi <= |p|
  {
    exists k :: lo <= k < hi && p[k] != '.'
  }

  /** No `/` at or after position `k`: `p[k..]` lies in the last path
      component. */
  predicate NoSlashFrom(p: string, k: int)
    requires 0 <= k <= |p|
  {
    forall j :: k <= j < |p| ==> p[j] != '/'
  }

  /** The last path component of `p` holds a dot with some non-dot
      character before it. */
  predicate HasExtension(p: string) {
    exists k, d :: 0 <= k < d < |p| && p[k] != '.' && p[d] == '.' && NoSlashFrom(p, k)
  }

  /** POSIX `os.path.splitext(p)`: the extension runs from the last dot of
      the last path component to the end, unless everything in that
      component before the dot is a dot (".pdf" and "..pdf" have none). */
  function SplitExt(p: string): (parts: (string, string))
    ensures parts.0 + parts.1 == p
    ensures parts.1 != [] <==> HasExtension(p)
    ensures parts.1 != [] ==> parts.1[0] == '.'
    ensures forall k :: 0 < k < |parts.1| ==> parts.1[k] != '.' && parts.1[k] != '/'
  {
    var sep := RFind(p, '/');
    var dot := RFind(p, '.');
    forall k, d | 0 <= k < d < |p| && p[k] != '.' && p[d] == '.' && NoSlashFrom(p, k)
      ensures sep < k < d <= dot && HasNonDot(p, sep + 1, dot)
    {
      assert sep >= 0 ==> p[sep] == '/';
    }
    if dot > sep && HasNonDot(p, sep + 1, dot) then
      var k :| sep + 1 <= k < dot && p[k] != '.';
      assert NoSlashFrom(p, k);
      assert HasExtension(p);
      assert p[..dot] + p[dot..] == p;
      (p[..dot], p[dot..])
    else
      (p, "")
  }

  /** The extension `splitext` reports: empty exactly when the last path
      component has no dot after a non-dot character; otherwise a suffix of
      the path that starts at its last dot and holds no `/`. */
  function Extension(p: string): (e: string)
    ensures e != [] <==> HasExtension(p)
    ensures e != [] ==> e[0] == '.' && |e| <= |p| && e == p[|p| - |e|..]
    ensures forall k :: 0 < k < |e| ==> e[k] != '.' && e[k] != '/'
  {
    var parts := SplitExt(p);
    assert p[|p| - |parts.1|..] == parts.1;
    parts.1
  }

  /** `validate_file`: the lower-cased extension when it is `.pdf` or
      `.txt`. The 400 raised for any other extension is caught by the
      method's own handler and raised again, still as 400, with
      "File validation failed: " in front. */
  function ValidateFile(filename: string): (r: Result<string>)
    ensures r.Ok? <==> Lower(Extension(filename)) in AllowedExtensions
    ensures r.Ok? ==> r.value == Lower(Extension(filename))
    ensures r.Err? ==> r.error == HttpException(400, ValidationFailed + ": " +
      HttpException(400, UnsupportedType + Lower(Extension(filename))).Describe())
  {
    var ext := Lower(Extension(filename));
    if ext !in AllowedExtensions then
      Rewrap(Err(HttpException(400, UnsupportedType + ext)), 400, ValidationFailed)
    else
      Ok(ext)
  }

  predicate IsHexDigit(c: char) {
    '0' <= c <= '9' || 'a' <= c <= 'f'
  }

  /** `uuid.uuid4().hex`: 32 lower-case hexadecimal digits. */
  predicate IsUuidHex(s: string) {
    |s| == 32 && forall k :: 0 <= k < |s| ==> IsHexDigit(s[k])
  }

  /** `generate_filename`: the random id followed by the original
      extension, its case kept. The id is a parameter: `uuid4` draws it. */
  function GenerateFilename(uid: string, originalName: string): (name: string)
    requires IsUuidHex(uid)
    ensures |name| == 32 + |Extension(originalName)|
    ensures name[..32] == uid && name[32..] == Extension(originalName)
  {
    uid + Extension(originalName)
  }

  /** `os.path.join("data/uploads", name)` for the generated name. */
  function SavedPath(uid: string, originalName: string): (path: string)
    requires IsUuidHex(uid)
    ensures path == UploadDir + "/" + GenerateFilename(uid, originalName)
  {
    UploadDir + "/" + GenerateFilename(uid, originalName)
  }

  lemma RFindAbsent(s: string, c: char)
    requires forall k :: 0 <= k < |s| ==> s[k] != c
    ensures RFind(s, c) == -1
  {
  }

  lemma {:induction false} RFindAppend(a: string, b: string, c: char)
    requires RFind(b, c) >= 0
    ensures RFind(a + b, c) == |a| + RFind(b, c)
    decreases |b|
  {
    var ab := a + b;
    if b[|b| - 1] != c {
      assert ab[..|ab| - 1] == a + b[..|b| - 1];
      RFindAppend(a, b[..|b| - 1], c);
    }
  }

  lemma {:induction false} RFindAppendAbsent(a: string, b: string, c: char)
    requires forall k :: 0 <= k < |b| ==> b[k] != c
    ensures RFind(a + b, c) == RFind(a, c)
    decreases |b|
  {
    var ab := a + b;
    if b == [] {
      assert ab == a;
    } else {
      assert ab[..|ab| - 1] == a + b[..|b| - 1];
      RFindAppendAbsent(a, b[..|b| - 1], c);
    }
  }

  /** A plain stem (no dot, no slash) followed by a dot and a dot-free,
      slash-free suffix splits back into exactly that stem and suffix. */
  lemma ExtensionOfStemPlus(stem: string, ext: string)
    requires stem != [] && forall k :: 0 <= k < |stem| ==> stem[k] != '.' && stem[k] != '/'
    requires ext != [] && ext[0] == '.'
    requires forall k :: 0 < k < |ext| ==> ext[k] != '.' && ext[k] != '/'
    ensures Extension(stem + ext) == ext
  {
    var name := stem + ext;
    RFindAbsent(stem, '/');
    RFindAppendAbsent(stem, ext, '/');
    assert ext == "." + ext[1..];
    RFindAppendAbsent(".", ext[1..], '.');
    RFindAppend(stem, ext, '.');
    assert name[0] == stem[0];
    assert HasNonDot(name, 0, |stem|);
    assert name[|stem|..] == ext;
  }

  /** The stored name keeps the original extension: splitting it again
      gives back exactly the extension it was built from. */
  lemma GeneratedNameKeepsExtension(uid: string, originalName: string)
    requires IsUuidHex(uid)
    ensures Extension(GenerateFilename(uid, originalName)) == Extension(originalName)
  {
    var ext := Extension(originalName);
    assert forall k :: 0 <= k < |uid| ==> uid[k] != '.' && uid[k] != '/';
    if ext == [] {
      RFindAbsent(uid, '.');
      assert GenerateFilename(uid, originalName) == uid;
    } else {
      ExtensionOfStemPlus(uid, ext);
    }
  }

  /** `validate_file` accepts a plain stem followed by `.pdf` or `.txt` in
      any letter case, and reports the extension in lower case. */
  lemma ValidateAcceptsStemPlusExtension(stem: string, ext: string)
    requires stem != [] && forall k :: 0 <= k < |stem| ==> stem[k] != '.' && stem[k] != '/'
    requires Lower(ext) in AllowedExtensions
    ensures ValidateFile(stem + ext) == Ok(Lower(ext))
  {
    assert |ext| == 4 && Lower(ext)[0] == '.';
    forall k | 0 < k < |ext|
      ensures ext[k] != '.' && ext[k] != '/'
    {
      assert Lower(ext)[k] == LowerChar(ext[k]);
    }
    ExtensionOfStemPlus(stem, ext);
  }

  /** An extension is what follows a last dot that has a non-dot character
      before it in its path component; so a name without a dot, and a hidden
      file such as ".pdf", are rejected. */
  lemma NoDotNoExtension(filename: string)
    requires forall k :: 0 <= k < |filename| ==> filename[k] != '.'
    ensures Extension(filename) == ""
    ensures ValidateFile(filename).Err? && ValidateFile(filename).error.IsHttp(400)
  {
    RFindAbsent(filename, '.');
    assert Lower("") == "";
    assert "" !in AllowedExtensions;
  }

  lemma HiddenFileRejected()
    ensures Extension(".pdf") == ""
    ensures ValidateFile(".pdf").Err?
  {
    assert ".pdf" == "." + "pdf";
    RFindAppendAbsent(".", "pdf", '.');
    assert RFind(".pdf", '/') == -1;
    assert !HasNonDot(".pdf", 0, 0);
    assert Lower("") == "";
    assert "" !in AllowedExtensions;
  }

  /** `A.PDF` is accepted as `.pdf` and stored as `<id>.PDF`. */
  lemma UppercaseAccepted(uid: string)
    requires IsUuidHex(uid)
    ensures ValidateFile("A.PDF") == Ok(".pdf")
    ensures GenerateFilename(uid, "A.PDF") == uid + ".PDF"
  {
    assert "A.PDF" == "A." + "PDF";
    RFindAppendAbsent("A.", "PDF", '.');
    assert RFind("A.PDF", '/') == -1;
    assert "A.PDF"[0] != '.';
    assert Extension("A.PDF") == ".PDF";
    assert Lower(".PDF") == ".pdf";
  }
}

=== FILE: nearest.dfy ===
/** Exact nearest-neighbour ranking of a flat L2 index, over integer vectors.
    Stored vectors are identified by their position (their handle); a query
    ranks every handle by squared Euclidean distance, ties broken by the
    smaller handle, and the first `k` handles of that ranking are the hits. */
module Nearest {

  type Vector = seq<int>

  /** Squared Euclidean distance of two vectors of the same dimension. */
  function SqDist(a: Vector, b: Vector): (d: nat)
    requires |a| == |b|
    ensures a == b ==> d == 0
  {
    if a == [] then 0 else Square(a[0] - b[0]) + SqDist(a[1..], b[1..])
  }

  function Square(x: int): (s: nat)
    ensures s == 0 <==> x == 0
  {
    if x == 0 then 0
    else
      SquarePositive(x);
      x * x
  }

  lemma SquarePositive(x: int)
    requires x != 0
    ensures x * x > 0
  {
    if x < 0 {
      assert x * x == (-x) * (-x);
    }
  }

  /** A stored vector is at distance zero from the query exactly when it is
      the query. */
  lemma {:induction false} SqDistZeroIff(a: Vector, b: Vector)
    requires |a| == |b|
    ensures SqDist(a, b) == 0 <==> a == b
  {
    if a != [] {
      SqDistZeroIff(a[1..], b[1..]);
      if a[0] == b[0] && a[1..] == b[1..] {
        assert a == [a[0]] + a[1..] && b == [b[0]] + b[1..];
      }
    }
  }

  /** The distances of every stored vector to the query, by handle. */
  function Distances(vectors: seq<Vector>, q: Vector): (ds: seq<nat>)
    requires forall h :: 0 <= h < |vectors| ==> |vectors[h]| == |q|
    ensures |ds| == |vectors|
    ensures forall h :: 0 <= h < |vectors| ==> ds[h] == SqDist(vectors[h], q)
  {
    if vectors == [] then []
    else Distances(vectors[..|vectors| - 1], q) + [SqDist(vectors[|vectors| - 1], q)]
  }

  /** Handle `a` ranks before handle `b`: it is closer, or equally close and
      stored earlier. */
  predicate Precedes(ds: seq<nat>, a: nat, b: nat)
    requires a < |ds| && b < |ds|
  {
    ds[a] < ds[b] || (ds[a] == ds[b] && a < b)
  }

  predicate Handles(ds: seq<nat>, hs: seq<nat>) {
    forall i :: 0 <= i < |hs| ==> hs[i] < |ds|
  }

  /** `hs` lists handles closest first, each strictly before the next. */
  predicate Ranked(ds: seq<nat>, hs: seq<nat>) {
    && Handles(ds, hs)
    && forall i, j :: 0 <= i < j < |hs| ==> Precedes(ds, hs[i], hs[j])
  }

  /** Puts handle `h` into a ranked list in front of the first handle it
      precedes. */
  function Insert(ds: seq<nat>, h: nat, hs: seq<nat>): (r: seq<nat>)
    requires h < |ds| && Handles(ds, hs)
    ensures |r| == |hs| + 1
    ensures multiset(r) == multiset(hs) + multiset{h}
    ensures Handles(ds, r)
    ensures Ranked(ds, hs) && h !in hs ==> Ranked(ds, r)
  {
    if hs == [] then [h]
    else if Precedes(ds, h, hs[0]) then
      InsertFront(ds, h, hs);
      [h] + hs
    else
      var rest := Insert(ds, h, hs[1..]);
      assert hs == [hs[0]] + hs[1..];
      InsertBehind(ds, h, hs, rest);
      [hs[0]] + rest
  }

  lemma InsertFront(ds: seq<nat>, h: nat, hs: seq<nat>)
    requires h < |ds| && hs != [] && Handles(ds, hs) && Precedes(ds, h, hs[0])
    ensures Ranked(ds, hs) ==> Ranked(ds, [h] + hs)
  {
    if !Ranked(ds, hs) {
      return;
    }
    var r := [h] + hs;
    forall i, j | 0 <= i < j < |r|
      ensures Precedes(ds, r[i], r[j])
    {
      if i == 0 && j > 1 {
        assert Precedes(ds, hs[0], hs[j - 1]);
      }
    }
  }

  lemma InsertBehind(ds: seq<nat>, h: nat, hs: seq<nat>, rest: seq<nat>)
    requires h < |ds| && hs != [] && Handles(ds, hs) && !Precedes(ds, h, hs[0])
    requires Handles(ds, rest) && multiset(rest) == multiset(hs[1..]) + multiset{h}
    requires Ranked(ds, hs[1..]) && h !in hs[1..] ==> Ranked(ds, rest)
    ensures Ranked(ds, hs) && h !in hs ==> Ranked(ds, [hs[0]] + rest)
  {
    if !(Ranked(ds, hs) && h !in hs) {
      return;
    }
    RankedTail(ds, hs);
    var r := [hs[0]] + rest;
    forall j | 0 < j < |r|
      ensures Precedes(ds, hs[0], r[j])
    {
      assert r[j] in multiset(rest);
      if r[j] != h {
        assert r[j] in multiset(hs[1..]);
        var k :| 0 <= k < |hs[1..]| && hs[1..][k] == r[j];
        assert hs[k + 1] == r[j];
      }
    }
  }

  /** All handles `0 .. n-1`, ranked. */
  function Rank(ds: seq<nat>, n: nat): (r: seq<nat>)
    requires n <= |ds|
    ensures |r| == n
    ensures forall h: int :: h in r <==> 0 <= h < n
    ensures Ranked(ds, r)
  {
    if n == 0 then []
    else
      var prev := Rank(ds, n - 1);
      var last: nat := n - 1;
      var r := Insert(ds, last, prev);
      InsertMembers(prev, last, r);
      r
  }

  lemma InsertMembers(hs: seq<nat>, h: nat, r: seq<nat>)
    requires multiset(r) == multiset(hs) + multiset{h}
    ensures forall x :: x in r <==> x in hs || x == h
  {
    forall x | true
      ensures x in r <==> x in hs || x == h
    {
      assert x in r <==> x in multiset(r);
      assert x in hs <==> x in multiset(hs);
    }
  }

  /** The `k` nearest handles, closest first (every handle when `k` exceeds
      the number stored). */
  function TopK(ds: seq<nat>, k: nat): (hits: seq<nat>)
    ensures |hits| == if k <= |ds| then k else |ds|
    ensures Ranked(ds, hits)
  {
    var all := Rank(ds, |ds|);
    all[..if k <= |ds| then k else |ds|]
  }

  /** A ranked list never repeats a handle. */
  lemma RankedDistinct(ds: seq<nat>, hs: seq<nat>, i: int, j: int)
    requires Ranked(ds, hs) && 0 <= i < j < |hs|
    ensures hs[i] != hs[j]
  {
    assert Precedes(ds, hs[i], hs[j]);
  }

  /** The hits are the nearest handles: every stored handle that is not a
      hit ranks after every hit, so it is at least as far from the query. */
  lemma TopKNearest(ds: seq<nat>, k: nat, hit: nat, other: nat)
    requires hit in TopK(ds, k) && other < |ds| && other !in TopK(ds, k)
    ensures Precedes(ds, hit, other)
    ensures ds[hit] <= ds[other]
  {
    var all := Rank(ds, |ds|);
    var m := |TopK(ds, k)|;
    assert TopK(ds, k) == all[..m];
    var i :| 0 <= i < m && all[i] == hit;
    assert other in all;
    var j :| 0 <= j < |all| && all[j] == other;
  }

  /** Every stored handle is returned when `k` covers the whole index. */
  lemma TopKAll(ds: seq<nat>, k: nat, h: nat)
    requires |ds| <= k && h < |ds|
    ensures h in TopK(ds, k)
  {
    assert TopK(ds, k) == Rank(ds, |ds|);
  }

  /** The ranking is the only ranked list of all handles: any list that is
      closest-first and holds exactly the handles `0 .. n-1` is `Rank`. */
  lemma {:induction false} RankedUnique(ds: seq<nat>, a: seq<nat>, b: seq<nat>)
    requires Ranked(ds, a) && Ranked(ds, b)
    requires forall h :: h in a <==> h in b
    ensures a == b
    decreases |a|
  {
    assert a != [] ==> a[0] in b;
    assert b != [] ==> b[0] in a;
    if a != [] && b != [] {
      forall h | h in a[1..]
        ensures h in b[1..]
      {
        var i :| 1 <= i < |a| && a[i] == h;
        RankedDistinct(ds, a, 0, i);
        assert h in b;
        var j :| 0 <= j < |b| && b[j] == h;
      }
      forall h | h in b[1..]
        ensures h in a[1..]
      {
        var j :| 1 <= j < |b| && b[j] == h;
        RankedDistinct(ds, b, 0, j);
        assert h in a;
        var i :| 0 <= i < |a| && a[i] == h;
      }
      RankedTail(ds, a);
      RankedTail(ds, b);
      RankedUnique(ds, a[1..], b[1..]);
      assert a == [a[0]] + a[1..] && b == [b[0]] + b[1..];
    }
  }

  lemma RankedTail(ds: seq<nat>, hs: seq<nat>)
    requires Ranked(ds, hs) && hs != []
    ensures Ranked(ds, hs[1..])
  {
    forall i, j | 0 <= i < j < |hs| - 1
      ensures Precedes(ds, hs[1..][i], hs[1..][j])
    {
      assert Precedes(ds, hs[i + 1], hs[j + 1]);
    }
  }
}

=== FILE: question_answering.dfy ===
/** Retrieval and answer assembly (`QuestionAnsweringService` in
    services/question_answering.py): embed the question, search the vector
    store, fetch the chunk rows whose id is among the hits, join their texts
    into the context, ask the language model, and cite every fetched chunk.
    The chunk table is a list of rows in the order the database scans them;
    the embedding model and the language model are parameters. */
module QuestionAnswering {
  import opened Text
  import opened Errors
  import opened Nearest
  import opened VectorStore
  import opened Embeddings

  const ContextSeparator: string := "\n\n"
  const MissingApiKey: string := " GROQ_API_KEY missing in local.yml → GROQ_CONFIG.API_KEY"

  /** A row of the chunk table. */
  datatype ChunkRow = ChunkRow(id: int, chunkId: int, page: Option<int>, text: string, filename: string)

  /** The answer `answer_question` returns. */
  datatype Answer = Answer(question: string, answer: string, sources: seq<string>)

  /** A constructed service: the vector store it searches. */
  datatype QaService = QaService(store: Store)

  /** `QuestionAnsweringService(db, vector_store_path)`: opens the store
      (384 dimensions), then refuses a missing or empty API key. The key is
      what the configuration lookup returned; `fault` is where opening the
      index file raises, as for `Open`. */
  function NewQaService(disk: Disk, vectorStorePath: string, apiKey: Option<string>, fault: Option<string>): (r: Result<QaService>)
    ensures Open(disk, vectorStorePath, DefaultEmbeddingDim, fault).Err? ==>
      r == Err(Open(disk, vectorStorePath, DefaultEmbeddingDim, fault).error)
    ensures Open(disk, vectorStorePath, DefaultEmbeddingDim, fault).Ok? ==>
      (r.Ok? <==> apiKey.Some? && apiKey.value != "")
    ensures r.Err? && Open(disk, vectorStorePath, DefaultEmbeddingDim, fault).Ok? ==> r.error == ValueError(MissingApiKey)
    ensures r.Ok? ==> r.value.store == Open(disk, vectorStorePath, DefaultEmbeddingDim, fault).value
  {
    var store :- Open(disk, vectorStorePath, DefaultEmbeddingDim, fault);
    if apiKey.None? || apiKey.value == "" then Err(ValueError(MissingApiKey))
    else Ok(QaService(store))
  }

  /** The rows of `table` whose id is in `ids`, in table order
      (`RowsWithIdsAppend`). */
  function RowsWithIds(table: seq<ChunkRow>, ids: seq<int>): (rows: seq<ChunkRow>)
    ensures |rows| <= |table|
    ensures forall r :: r in rows <==> r in table && r.id in ids
    ensures forall i :: 0 <= i < |rows| ==> rows[i].id in ids
  {
    if table == [] then []
    else if table[0].id in ids then [table[0]] + RowsWithIds(table[1..], ids)
    else RowsWithIds(table[1..], ids)
  }

  /** `_fetch_context(indices, limit)`: the rows whose id is among the first
      `limit` handles (`indices[:limit]`, with Python's slice rules). */
  function FetchContext(table: seq<ChunkRow>, indices: seq<int>, limit: int): (rows: seq<ChunkRow>)
    ensures forall r :: r in rows <==> r in table && r.id in PySlice(indices, 0, limit)
  {
    RowsWithIds(table, PySlice(indices, 0, limit))
  }

  /** Every fetched row is one the search returned, whatever the limit. */
  lemma FetchedRowsAreHits(table: seq<ChunkRow>, indices: seq<int>, limit: int, r: ChunkRow)
    requires r in FetchContext(table, indices, limit)
    ensures r in table && r.id in indices
  {
    PySliceWithin(indices, 0, limit, r.id);
  }

  /** The citation `"<filename> (Chunk <chunk_id>, Page <page>)"`; a row
      without a page prints Python's `None`. */
  function Citation(row: ChunkRow): (c: string)
    ensures |c| > |row.filename| && c[..|row.filename|] == row.filename && c[|c| - 1] == ')'
  {
    row.filename + " (Chunk " + IntToString(row.chunkId) + ", Page " + PageLabel(row.page) + ")"
  }

  /** How `f"{c.get('page', 'N/A')}"` prints a page: Python's `None` for a
      row without one, never `N/A`, since every row has the key. The label
      is one word, and only a missing page prints `None`. */
  function PageLabel(page: Option<int>): (l: string)
    ensures page.None? <==> l == "None"
    ensures |l| >= 1 && forall k :: 0 <= k < |l| ==> l[k] != ' '
  {
    match page
    case Some(p) =>
      var l := IntToString(p);
      assert l[0] == '-' || IsDigit(l[0]);
      l
    case None => "None"
  }

  /** Python's `int(s)` restricted to an optional minus sign followed by
      decimal digits. */
  function ParseInt(s: string): Option<int> {
    if |s| >= 2 && s[0] == '-' && AllDigits(s[1..]) then Some(-(ParseDigits(s[1..]) as int))
    else if s != [] && AllDigits(s) then Some(ParseDigits(s))
    else None
  }

  /** `int(str(i)) == i`. */
  lemma ParseIntToString(i: int)
    ensures ParseInt(IntToString(i)) == Some(i)
  {
    var s := IntToString(i);
    if i < 0 {
      assert s[1..] == NatToString(-i);
      ParseNatToString(-i);
    } else {
      ParseNatToString(i);
    }
  }


  /** Reads a page label back: `None` or a number. */
  function ParsePage(l: string): Option<Option<int>> {
    if l == "None" then Some(None)
    else
      match ParseInt(l)
      case Some(p) => Some(Some(p))
      case None => None
  }

  lemma ParsePageLabel(page: Option<int>)
    ensures ParsePage(PageLabel(page)) == Some(page)
  {
    if page.Some? {
      ParseIntToString(page.value);
    }
  }

  /** Reads a citation back into its file name, chunk id and page, from the
      right: the page label is the last word before `)`, the chunk id the
      word before `", Page "`, and the file name everything before
      `" (Chunk "`. The file name may itself hold any characters. */
  function ParseCitation(c: string): Option<(string, int, Option<int>)> {
    if c == [] || c[|c| - 1] != ')' then None
    else
      var a := WordStart(c, |c| - 1);
      if a < 7 || c[a - 7..a] != ", Page " then None
      else
        var b := WordStart(c, a - 7);
        if b < 8 || c[b - 8..b] != " (Chunk " then None
        else
          match (ParseInt(c[b..a - 7]), ParsePage(c[a..|c| - 1]))
          case (Some(id), Some(page)) => Some((c[..b - 8], id, page))
          case _ => None
  }

  /** Where the parts of a citation sit, for parts of any length. */
  lemma CitationLayout(f: string, id: string, pg: string)
    ensures var c := f + " (Chunk " + id + ", Page " + pg + ")";
      var b := |f| + 8;
      var a := b + |id| + 7;
      && |c| == a + |pg| + 1 && c[|c| - 1] == ')'
      && c[a - 1] == ' ' && c[a..|c| - 1] == pg && c[a - 7..a] == ", Page "
      && c[b - 1] == ' ' && c[b..a - 7] == id && c[b - 8..b] == " (Chunk " && c[..b - 8] == f
  {
    var p1 := f + " (Chunk ";
    var p2 := p1 + id;
    var p3 := p2 + ", Page ";
    var p4 := p3 + pg;
    var c := p4 + ")";
    assert c == f + " (Chunk " + id + ", Page " + pg + ")";
    assert c[..|p4|] == p4;
    assert c[..|p3|] == p4[..|p3|] == p3;
    assert c[..|p2|] == p3[..|p2|] == p2;
    assert c[..|p1|] == p2[..|p1|] == p1;
    assert c[|p3|..|p4|] == p4[|p3|..] == pg;
    assert c[|p2|..|p3|] == p3[|p2|..] == ", Page ";
    assert c[|p1|..|p2|] == p2[|p1|..] == id;
    assert c[|f|..|p1|] == p1[|f|..] == " (Chunk ";
    assert c[..|f|] == p1[..|f|] == f;
  }

  /** A word `w` written right after a blank at `lo` is the word ending
      at `lo + |w|`. */
  lemma WordAfterBlank(c: string, lo: nat, w: string)
    requires 0 < lo && lo + |w| <= |c| && c[lo - 1] == ' ' && c[lo..lo + |w|] == w
    requires forall k :: 0 <= k < |w| ==> w[k] != ' '
    ensures WordStart(c, lo + |w|) == lo
  {
    forall k | lo <= k < lo + |w|
      ensures c[k] != ' '
    {
      assert c[k] == c[lo..lo + |w|][k - lo];
    }
    WordStartAt(c, lo, lo + |w|);
  }

  /** `ParseCitation` once the two word boundaries and the parts between
      them are known. */
  lemma ParseCitationAt(c: string, a: nat, b: nat, f: string, id: int, page: Option<int>)
    requires c != [] && c[|c| - 1] == ')'
    requires a < |c| && WordStart(c, |c| - 1) == a && a >= 7 && c[a - 7..a] == ", Page "
    requires WordStart(c, a - 7) == b && b >= 8 && c[b - 8..b] == " (Chunk "
    requires ParseInt(c[b..a - 7]) == Some(id) && ParsePage(c[a..|c| - 1]) == Some(page)
    requires c[..b - 8] == f
    ensures ParseCitation(c) == Some((f, id, page))
  {
  }

  /** A citation assembled from any file name and two blank-free words
      that parse reads back as those parts. */
  lemma ParseAssembledCitation(f: string, id: string, pg: string, chunkId: int, page: Option<int>)
    requires forall k :: 0 <= k < |id| ==> id[k] != ' '
    requires forall k :: 0 <= k < |pg| ==> pg[k] != ' '
    requires ParseInt(id) == Some(chunkId) && ParsePage(pg) == Some(page)
    ensures ParseCitation(f + " (Chunk " + id + ", Page " + pg + ")") == Some((f, chunkId, page))
  {
    var c := f + " (Chunk " + id + ", Page " + pg + ")";
    CitationLayout(f, id, pg);
    var b := |f| + 8;
    var a := b + |id| + 7;
    WordAfterBlank(c, a, pg);
    WordAfterBlank(c, b, id);
    ParseCitationAt(c, a, b, f, chunkId, page);
  }

  /** The citation loses nothing: its file name, chunk id and page read
      back exactly, whatever the file name holds. */
  lemma CitationRoundTrip(row: ChunkRow)
    ensures ParseCitation(Citation(row)) == Some((row.filename, row.chunkId, row.page))
  {
    var id := IntToString(row.chunkId);
    assert id[0] == '-' || IsDigit(id[0]);
    ParseIntToString(row.chunkId);
    ParsePageLabel(row.page);
    ParseAssembledCitation(row.filename, id, PageLabel(row.page), row.chunkId, row.page);
  }

  function Texts(rows: seq<ChunkRow>): (texts: seq<string>)
    ensures |texts| == |rows|
    ensures forall i :: 0 <= i < |rows| ==> texts[i] == rows[i].text
  {
    if rows == [] then [] else [rows[0].text] + Texts(rows[1..])
  }

  function Citations(rows: seq<ChunkRow>): (sources: seq<string>)
    ensures |sources| == |rows|
    ensures forall i :: 0 <= i < |rows| ==> sources[i] == Citation(rows[i])
  {
    if rows == [] then [] else [Citation(rows[0])] + Citations(rows[1..])
  }

  /** The context handed to the language model for the fetched rows: empty
      without rows, otherwise the first row's text first, and every text
      with one separator between neighbours. */
  function ContextText(rows: seq<ChunkRow>): (ctx: string)
    ensures rows == [] ==> ctx == ""
    ensures |rows| >= 1 ==> |ctx| == TotalLength(Texts(rows)) + (|rows| - 1) * |ContextSeparator|
    ensures |rows| >= 1 ==> ctx[..|rows[0].text|] == rows[0].text
  {
    Join(Texts(rows), ContextSeparator)
  }

  /** `answer_question(query, top_k)`. `llm(context, question)` is the
      content of the chain's reply, or the error the chain raised.
      `dbFault` says whether the chunk query of `_fetch_context` raises;
      nothing on the way catches that error, so it leaves unwrapped. */
  function AnswerQuestion(svc: QaService, table: seq<ChunkRow>, model: string -> Vector,
                          llm: (string, string) -> Result<string>, query: string,
                          dbFault: Option<string>, topK: int := DefaultTopK): (r: Result<Answer>)
    ensures Search(svc.store, model(query), topK).Err? ==> r == Err(Search(svc.store, model(query), topK).error)
    ensures Search(svc.store, model(query), topK).Ok? && dbFault.Some? ==>
      r == Err(LibraryError(dbFault.value))
    ensures Search(svc.store, model(query), topK).Ok? && dbFault.None? ==>
      var rows := FetchContext(table, Search(svc.store, model(query), topK).value.indices, topK);
      var reply := llm(ContextText(rows), query);
      && (reply.Err? ==> r == Err(reply.error))
      && (reply.Ok? ==> r.Ok? && r.value.answer == Strip(reply.value) && r.value.sources == Citations(rows))
    ensures r.Ok? ==> r.value.question == query && IsStripped(r.value.answer)
  {
    var embedded := CreateEmbeddings(model, [query]);
    var queryVector := embedded.value[0];
    var hits :- Search(svc.store, queryVector, topK);
    var rows :- match dbFault
      case Some(m) => Err(LibraryError(m))
      case None => Ok(FetchContext(table, hits.indices, topK));
    var reply :- llm(ContextText(rows), query);
    Ok(Answer(query, Strip(reply), Citations(rows)))
  }

  /** One citation per fetched row, in the same order, and each citation
      starts with the file name of its row. */
  lemma CitationsMatchRows(rows: seq<ChunkRow>, i: int)
    requires 0 <= i < |rows|
    ensures |Citations(rows)| == |rows|
    ensures Citations(rows)[i][..|rows[i].filename|] == rows[i].filename
  {
  }

  /** The context holds the fetched texts in order, one separator between
      neighbours: fetching one more row appends the separator and its text. */
  lemma ContextGrows(rows: seq<ChunkRow>, row: ChunkRow)
    requires rows != []
    ensures ContextText(rows + [row]) == ContextText(rows) + ContextSeparator + row.text
  {
    assert Texts(rows + [row]) == Texts(rows) + [row.text];
    JoinSnoc(Texts(rows), row.text, ContextSeparator);
  }

  /** When none of the hits has a row, the context is empty, the model is
      still asked, and the answer has no sources. */
  lemma NoMatchesStillAsks(svc: QaService, table: seq<ChunkRow>, model: string -> Vector,
                           llm: (string, string) -> Result<string>, query: string, topK: int)
    requires Search(svc.store, model(query), topK).Ok?
    requires forall r :: r in table ==> r.id !in Search(svc.store, model(query), topK).value.indices
    requires llm("", query).Ok?
    ensures AnswerQuestion(svc, table, model, llm, query, None, topK) ==
      Ok(Answer(query, Strip(llm("", query).value), []))
  {
    var hits := Search(svc.store, model(query), topK).value;
    NoRowsFetched(table, hits.indices, topK);
    assert ContextText([]) == "";
  }

  lemma NoRowsFetched(table: seq<ChunkRow>, indices: seq<int>, limit: int)
    requires forall r :: r in table ==> r.id !in indices
    ensures FetchContext(table, indices, limit) == []
  {
    var window := PySlice(indices, 0, limit);
    assert forall i :: 0 <= i < |table| ==> table[i].id !in window;
    RowsWithIdsNone(table, window);
  }

  /** The filter keeps table order: filtering two stretches of the table
      and concatenating gives the filter of the whole. */
  lemma {:induction false} RowsWithIdsAppend(a: seq<ChunkRow>, b: seq<ChunkRow>, ids: seq<int>)
    ensures RowsWithIds(a + b, ids) == RowsWithIds(a, ids) + RowsWithIds(b, ids)
  {
    if a != [] {
      assert (a + b)[1..] == a[1..] + b;
      RowsWithIdsAppend(a[1..], b, ids);
    } else {
      assert a + b == b;
    }
  }

  /** In particular a matching row is fetched after every match in front
      of it in the table and before every match behind it. */
  lemma RowsAroundMatch(table: seq<ChunkRow>, ids: seq<int>, i: int)
    requires 0 <= i < |table| && table[i].id in ids
    ensures RowsWithIds(table, ids)
         == RowsWithIds(table[..i], ids) + [table[i]] + RowsWithIds(table[i + 1..], ids)
  {
    assert table == table[..i] + ([table[i]] + table[i + 1..]);
    RowsWithIdsAppend(table[..i], [table[i]] + table[i + 1..], ids);
    RowsWithIdsAppend([table[i]], table[i + 1..], ids);
    assert ([table[i]])[1..] == [];
    assert RowsWithIds([table[i]], ids) == [table[i]] + RowsWithIds([], ids);
  }

  lemma {:induction false} RowsWithIdsNone(table: seq<ChunkRow>, ids: seq<int>)
    requires forall i :: 0 <= i < |table| ==> table[i].id !in ids
    ensures RowsWithIds(table, ids) == []
  {
    if table != [] {
      RowsWithIdsNone(table[1..], ids);
    }
  }

  /** Every fetched row's id is one of the first `limit` handles, and every
      such row of the table is fetched. */
  lemma FetchContextExact(table: seq<ChunkRow>, indices: seq<int>, limit: int, row: ChunkRow)
    requires 0 <= limit
    ensures row in FetchContext(table, indices, limit) <==>
      row in table && exists k :: 0 <= k < |indices| && k < limit && indices[k] == row.id
  {
    var window := PySlice(indices, 0, limit);
    var m := if limit <= |indices| then limit else |indices|;
    assert window == indices[..m];
    if row.id in window {
      var k :| 0 <= k < |window| && window[k] == row.id;
      assert indices[k] == row.id;
    }
  }

  predicate DistinctIds(rows: seq<ChunkRow>) {
    forall i, j :: 0 <= i < j < |rows| ==> rows[i].id != rows[j].id
  }

  /** Row ids are the table's primary key, so a fetch returns each row once
      and at most `limit` rows. */
  lemma FetchContextBound(table: seq<ChunkRow>, indices: seq<int>, limit: int)
    requires DistinctIds(table)
    ensures DistinctIds(FetchContext(table, indices, limit))
    ensures |FetchContext(table, indices, limit)| <= |PySlice(indices, 0, limit)|
    ensures 0 <= limit ==> |FetchContext(table, indices, limit)| <= limit
  {
    var window := PySlice(indices, 0, limit);
    RowsWithIdsDistinct(table, window);
    var rows := FetchContext(table, indices, limit);
    IdsCard(rows);
    assert IdSet(rows) <= Elements(window);
    ElementsCard(window);
    SubsetCard(IdSet(rows), Elements(window));
  }

  lemma {:induction false} RowsWithIdsDistinct(table: seq<ChunkRow>, ids: seq<int>)
    requires DistinctIds(table)
    ensures DistinctIds(RowsWithIds(table, ids))
  {
    if table != [] {
      var tail := table[1..];
      assert DistinctIds(tail) by {
        forall i, j | 0 <= i < j < |tail|
          ensures tail[i].id != tail[j].id
        {
          assert tail[i] == table[i + 1] && tail[j] == table[j + 1];
        }
      }
      RowsWithIdsDistinct(tail, ids);
      var rest := RowsWithIds(tail, ids);
      if table[0].id in ids {
        var rows := [table[0]] + rest;
        forall i, j | 0 <= i < j < |rows|
          ensures rows[i].id != rows[j].id
        {
          if i == 0 {
            assert rows[j] in tail;
            var k :| 0 <= k < |tail| && tail[k] == rows[j];
            assert table[k + 1] == rows[j];
          }
        }
      }
    }
  }

  function IdSet(rows: seq<ChunkRow>): (s: set<int>)
    ensures forall x :: x in s <==> exists i :: 0 <= i < |rows| && rows[i].id == x
  {
    if rows == [] then {}
    else
      var rest := IdSet(rows[1..]);
      assert forall i :: 0 <= i < |rows[1..]| ==> rows[1..][i] == rows[i + 1];
      {rows[0].id} + rest
  }

  function Elements(s: seq<int>): (e: set<int>)
    ensures forall x :: x in e <==> x in s
  {
    set x | x in s
  }

  lemma {:induction false} IdsCard(rows: seq<ChunkRow>)
    requires DistinctIds(rows)
    ensures |IdSet(rows)| == |rows|
  {
    if rows != [] {
      var tail := rows[1..];
      assert DistinctIds(tail) by {
        forall i, j | 0 <= i < j < |tail|
          ensures tail[i].id != tail[j].id
        {
          assert tail[i] == rows[i + 1] && tail[j] == rows[j + 1];
        }
      }
      IdsCard(tail);
      assert forall i :: 0 <= i < |tail| ==> tail[i].id != rows[0].id by {
        forall i | 0 <= i < |tail|
          ensures tail[i].id != rows[0].id
        {
          assert tail[i] == rows[i + 1];
        }
      }
    }
  }

  lemma {:induction false} ElementsCard(s: seq<int>)
    ensures |Elements(s)| <= |s|
  {
    if s != [] {
      ElementsCard(s[1..]);
      assert Elements(s) == {s[0]} + Elements(s[1..]);
    }
  }

  lemma {:induction false} SubsetCard(a: set<int>, b: set<int>)
    requires a <= b
    ensures |a| <= |b|
  {
    assert b == a + (b - a);
  
  }
}

=== FILE: splitter.dfy ===
/** The sliding-window chunker (`TextSplitter` in services/text_spitter.py):
    windows of `chunkSize` characters start at 0, step, 2*step, ... with
    step = chunkSize - overlap, and every window is stripped of white space. */
module Splitter {
  import opened Text

  const DefaultChunkSize: int := 800
  const DefaultOverlap: int := 100

  datatype TextSplitter = TextSplitter(chunkSize: int, overlap: int) {
    /** How far the window start moves after each chunk. */
    function Step(): int {
      chunkSize - overlap
    }

    /** The loop only terminates when every step moves forward; the source
        never checks this. */
    predicate Advances() {
      chunkSize > overlap
    }
  }

  /** `TextSplitter()` with its default arguments. */
  const DefaultSplitter := TextSplitter(DefaultChunkSize, DefaultOverlap)

  function Min(a: int, b: int): int {
    if a <= b then a else b
  }

  /** `text[start:min(start + chunk_size, len(text))]`, with Python's slice
      rules (a negative chunk size gives a negative end, counted from the back). */
  function RawWindow(sp: TextSplitter, text: string, start: int): (w: string)
    ensures 0 <= start <= |text| && 0 <= sp.chunkSize ==>
      w == text[start..Min(start + sp.chunkSize, |text|)] && |w| <= sp.chunkSize
    ensures 0 <= start && |text| <= start ==> w == []
  {
    PySlice(text, start, Min(start + sp.chunkSize, |text|))
  }

  /** The chunk the loop emits for the window starting at `start`. */
  function Window(sp: TextSplitter, text: string, start: int): (w: string)
    ensures IsStripped(w) && |w| <= |RawWindow(sp, text, start)|
    ensures 0 <= start <= |text| && 0 <= sp.chunkSize ==> |w| <= sp.chunkSize
  {
    Strip(RawWindow(sp, text, start))
  }

  /** Where the `i`-th window starts: the source adds `step` to the offset
      once per iteration. */
  function Start(sp: TextSplitter, i: nat): int {
    if i == 0 then 0 else Start(sp, i - 1) + sp.Step()
  }

  lemma {:induction false} StartIsMultiple(sp: TextSplitter, i: nat)
    ensures Start(sp, i) == i * sp.Step()
  {
    if i > 0 {
      StartIsMultiple(sp, i - 1);
      MulSucc(i - 1, sp.Step());
    }
  }

  /** The window starts the loop of `split_text` visits from its `round`-th
      iteration on: every start from `Start(round)` on that lies below `len`. */
  function StartsFrom(sp: TextSplitter, len: nat, round: nat): (starts: seq<int>)
    requires sp.Advances()
    decreases len - Start(sp, round)
    ensures Start(sp, round) >= len ==> starts == []
    ensures Start(sp, round) < len ==> |starts| >= 1 && len <= Start(sp, round + |starts|)
    ensures forall j :: round <= j < round + |starts| ==> starts[j - round] == Start(sp, j) < len
  {
    if Start(sp, round) < len then [Start(sp, round)] + StartsFrom(sp, len, round + 1) else []
  }

  /** `[text[s:min(s + chunk_size, len(text))].strip() for s in starts]`. */
  function WindowsAt(sp: TextSplitter, text: string, starts: seq<int>): (chunks: seq<string>)
    ensures |chunks| == |starts|
    ensures forall i :: 0 <= i < |starts| ==> chunks[i] == Window(sp, text, starts[i])
  {
    if starts == [] then [] else [Window(sp, text, starts[0])] + WindowsAt(sp, text, starts[1..])
  }

  /** `TextSplitter.split_text`: chunk `i` is the stripped window that
      starts at `Start(i)`, and there is one chunk per start below `|text|`. */
  function SplitText(sp: TextSplitter, text: string): (chunks: seq<string>)
    requires sp.Advances()
    ensures text == [] ==> chunks == []
    ensures text != [] ==> |chunks| >= 1 && Start(sp, |chunks| - 1) < |text| <= Start(sp, |chunks|)
    ensures forall i {:trigger chunks[i]} :: 0 <= i < |chunks| ==>
      Start(sp, i) < |text| && chunks[i] == Window(sp, text, Start(sp, i))
  {
    if text == [] then []
    else
      var starts := StartsFrom(sp, |text|, 0);
      assert forall i :: 0 <= i < |starts| ==> starts[i] == starts[i - 0];
      WindowsAt(sp, text, starts)
  }

  /** The number of chunks is the ceiling of `|text| / step`. */
  lemma ChunkCount(sp: TextSplitter, text: string)
    requires sp.Advances()
    ensures |SplitText(sp, text)| == CeilDiv(|text|, sp.Step())
  {
    var n := |SplitText(sp, text)|;
    if text == [] {
      DivOfMultiplePlus(0, sp.Step(), sp.Step() - 1);
    } else {
      CountFromStarts(sp, |text|, n);
    }
  }

  /** `ceil(len / d)` for a positive `d`. */
  function CeilDiv(len: nat, d: int): nat
    requires d > 0
  {
    (len + d - 1) / d
  }

  lemma CountFromStarts(sp: TextSplitter, len: nat, n: nat)
    requires sp.Advances() && n >= 1
    requires Start(sp, n - 1) < len <= Start(sp, n)
    ensures n == CeilDiv(len, sp.Step())
  {
    StartIsMultiple(sp, n - 1);
    StartIsMultiple(sp, n);
    CeilDivUnique(len, sp.Step(), n);
  }

  /** Chunk `i` is `strip(text[i*step : min(i*step + chunk_size, len(text))])`. */
  lemma ChunkIsStrippedWindow(sp: TextSplitter, text: string, i: int)
    requires sp.Advances()
    requires 0 <= i < |SplitText(sp, text)|
    ensures 0 <= i * sp.Step() < |text|
    ensures SplitText(sp, text)[i] ==
      Strip(PySlice(text, i * sp.Step(), Min(i * sp.Step() + sp.chunkSize, |text|)))
  {
    var m := i * sp.Step();
    ChunkStart(sp, text, i);
    ChunkAt(sp, text, i, m);
    WindowAt(sp, text, m, m);
  }

  lemma ChunkStart(sp: TextSplitter, text: string, i: int)
    requires sp.Advances()
    requires 0 <= i < |SplitText(sp, text)|
    ensures Start(sp, i) == i * sp.Step()
    ensures 0 <= i * sp.Step() < |text|
  {
    StartIsMultiple(sp, i);
    MulMonotone(0, i, sp.Step());
  }

  lemma ChunkAt(sp: TextSplitter, text: string, i: int, m: int)
    requires sp.Advances()
    requires 0 <= i < |SplitText(sp, text)| && Start(sp, i) == m
    ensures SplitText(sp, text)[i] == Window(sp, text, m)
  {
  }

  lemma WindowAt(sp: TextSplitter, text: string, st: int, m: int)
    requires st == m
    ensures Window(sp, text, st) == Strip(PySlice(text, m, Min(m + sp.chunkSize, |text|)))
  {
    assert RawWindow(sp, text, st) == PySlice(text, m, Min(m + sp.chunkSize, |text|));
  }

  /** `n` is the ceiling of `len / d` when the n-th multiple of `d` is the
      first one to reach `len`. */
  lemma CeilDivUnique(len: nat, d: int, n: nat)
    requires d > 0 && n >= 1
    requires (n - 1) * d < len <= n * d
    ensures n == (len + d - 1) / d
  {
    var r := len + d - 1 - n * d;
    assert (n - 1) * d == n * d - d;
    assert 0 <= r < d;
    assert len + d - 1 == n * d + r;
    DivOfMultiplePlus(n, d, r);
  }

  lemma DivOfMultiplePlus(n: int, d: int, r: int)
    requires d > 0 && 0 <= r < d
    ensures (n * d + r) / d == n
  {
    var x := n * d + r;
    var q := x / d;
    var m := x % d;
    assert x == d * q + m;
    MulSub(n, q, d);
    assert (n - q) * d == m - r;
    if n > q {
      MulMonotone(1, n - q, d);
    } else if n < q {
      MulMonotone(1, q - n, d);
      MulSub(q, n, d);
    }
  }

  lemma MulSucc(n: int, d: int)
    ensures (n + 1) * d == n * d + d
  {
  }

  lemma MulSub(a: int, b: int, d: int)
    ensures (a - b) * d == a * d - b * d
  {
  }

  lemma MulMonotone(a: int, b: int, c: int)
    requires a <= b && c >= 0
    ensures a * c <= b * c
  {
    assert b * c - a * c == (b - a) * c;
  }

  lemma {:induction false} StartMonotone(sp: TextSplitter, i: nat, j: nat)
    requires sp.Advances() && i <= j
    ensures Start(sp, i) <= Start(sp, j)
    decreases j
  {
    if i < j {
      StartMonotone(sp, i, j - 1);
    }
  }

  /** A window that starts inside the text is at most `chunkSize` long. */
  lemma RawWindowLength(sp: TextSplitter, text: string, start: int)
    requires 0 <= start <= |text| && sp.chunkSize >= 0
    ensures |RawWindow(sp, text, start)| <= sp.chunkSize
  {
    assert RawWindow(sp, text, start) == text[start..Min(start + sp.chunkSize, |text|)];
  }

  /** Every chunk is at most `chunkSize` characters long. */
  lemma ChunkLengthBound(sp: TextSplitter, text: string, i: int)
    requires sp.Advances() && sp.chunkSize >= 0
    requires 0 <= i < |SplitText(sp, text)|
    ensures |SplitText(sp, text)[i]| <= sp.chunkSize
  {
    StartMonotone(sp, 0, i);
    RawWindowLength(sp, text, Start(sp, i));
  }

  /** `q = p / d` is the multiple of `d` at or below `p` with `p` less than
      the next one. */
  lemma FloorDiv(p: nat, d: int)
    requires d > 0
    ensures 0 <= p / d
    ensures (p / d) * d <= p < (p / d) * d + d
  {
    var q := p / d;
    assert d * q + p % d == p;
    if q < 0 {
      MulMonotone(q, -1, d);
    }
  }

  /** The round whose window start is the last one at or before `p`. */
  function CoveringRound(sp: TextSplitter, p: nat): (i: nat)
    requires sp.Advances()
    ensures Start(sp, i) <= p < Start(sp, i) + sp.Step()
  {
    FloorDiv(p, sp.Step());
    StartIsMultiple(sp, p / sp.Step());
    p / sp.Step()
  }

  /** With 0 <= overlap < chunkSize the raw windows leave no gap: position
      `p` lies in the window of chunk `p / step`, the round covering it. */
  lemma WindowsCoverText(sp: TextSplitter, text: string, p: int)
    requires 0 <= sp.overlap < sp.chunkSize
    requires 0 <= p < |text|
    ensures CoveringRound(sp, p) < |SplitText(sp, text)|
    ensures Start(sp, CoveringRound(sp, p)) <= p < Min(Start(sp, CoveringRound(sp, p)) + sp.chunkSize, |text|)
  {
    CoveringRoundIsChunk(sp, |SplitText(sp, text)|, |text|, p);
    CoveringWindow(sp, |text|, p);
  }

  lemma CoveringRoundIsChunk(sp: TextSplitter, n: nat, len: nat, p: nat)
    requires sp.Advances() && p < len <= Start(sp, n)
    ensures CoveringRound(sp, p) < n
  {
    var i := CoveringRound(sp, p);
    if i >= n {
      StartMonotone(sp, n, i);
    }
  }

  lemma CoveringWindow(sp: TextSplitter, len: nat, p: nat)
    requires 0 <= sp.overlap < sp.chunkSize && p < len
    ensures Start(sp, CoveringRound(sp, p)) <= p < Min(Start(sp, CoveringRound(sp, p)) + sp.chunkSize, len)
  {
    var st := Start(sp, CoveringRound(sp, p));
    assert p < st + sp.Step() <= st + sp.chunkSize;
  }

  /** A window that is all white space still yields a chunk, the empty one;
      so the number of chunks depends on the length of the text only. */
  lemma SpaceWindowGivesEmptyChunk(sp: TextSplitter, text: string, i: int)
    requires sp.Advances()
    requires 0 <= i < |SplitText(sp, text)|
    requires AllSpace(RawWindow(sp, text, Start(sp, i)))
    ensures SplitText(sp, text)[i] == ""
  {
    StripEmptyIffAllSpace(RawWindow(sp, text, Start(sp, i)));
  }

  /** Texts of equal length are cut into the same number of chunks. */
  lemma ChunkCountDependsOnLengthOnly(sp: TextSplitter, a: string, b: string)
    requires sp.Advances() && |a| == |b|
    ensures |SplitText(sp, a)| == |SplitText(sp, b)|
  {
  }

  /** When `chunkSize <= overlap` the offset after `n` rounds is `n * step <= 0`,
      still below the length of any non-empty text: the source's loop never ends. */
  lemma {:induction false} NoProgressWithoutAdvance(sp: TextSplitter, text: string, n: nat)
    requires sp.chunkSize <= sp.overlap && text != []
    ensures n * sp.Step() < |text|
  {
    MulMonotone(0, n, -sp.Step());
    assert n * sp.Step() == -(n * -sp.Step());
  }

  /** The default splitter cuts 1700 characters into the windows [0,800),
      [700,1500) and [1400,1700). */
  lemma DefaultScenario(text: string)
    requires |text| == 1700
    ensures DefaultSplitter.Step() == 700
    ensures |SplitText(DefaultSplitter, text)| == 3
    ensures SplitText(DefaultSplitter, text)[0] == Strip(text[0..800])
    ensures SplitText(DefaultSplitter, text)[1] == Strip(text[700..1500])
    ensures SplitText(DefaultSplitter, text)[2] == Strip(text[1400..1700])
  {
    var sp := DefaultSplitter;
    ChunkCount(sp, text);
    assert CeilDiv(1700, 700) == 3;
    assert Start(sp, 1) == 700;
    assert Start(sp, 2) == 1400;
    assert RawWindow(sp, text, 0) == text[0..800];
    assert RawWindow(sp, text, 700) == text[700..1500];
    assert RawWindow(sp, text, 1400) == text[1400..1700];
  }
}

=== FILE: text.dfy ===
/** Python string and sequence primitives the backend relies on: `str.strip()`,
    ASCII `str.lower()`, `str.join`, `str(int)` and slicing with Python's
    negative-index rules. */
module Text {

  /** Python's `str.isspace()` for one character: the Unicode white-space
      characters plus the ASCII file, group, record and unit separators. */
  predicate IsSpace(c: char) {
    || c == ' '
    || ('\t' <= c <= '\r')
    || ('\U{1C}' <= c <= '\U{1F}')
    || c == '\U{85}'
    || c == '\U{A0}'
    || c == '\U{1680}'
    || ('\U{2000}' <= c <= '\U{200A}')
    || c == '\U{2028}'
    || c == '\U{2029}'
    || c == '\U{202F}'
    || c == '\U{205F}'
    || c == '\U{3000}'
  }

  predicate AllSpace(s: string) {
    forall k :: 0 <= k < |s| ==> IsSpace(s[k])
  }

  /** True iff `s` has no white space at either end (what `strip()` returns). */
  predicate IsStripped(s: string) {
    s != [] ==> !IsSpace(s[0]) && !IsSpace(s[|s| - 1])
  }

  /** Where `s.lstrip()` starts: the first position from `i` on that does
      not hold white space (or `|s|`). */
  function SkipSpace(s: string, i: nat): (n: nat)
    requires i <= |s|
    decreases |s| - i
    ensures i <= n <= |s|
    ensures forall k :: i <= k < n ==> IsSpace(s[k])
    ensures n < |s| ==> !IsSpace(s[n])
  {
    if i < |s| && IsSpace(s[i]) then SkipSpace(s, i + 1) else i
  }

  /** Where `s[lo:j].rstrip()` ends: the last position down from `j`, but
      not below `lo`, that follows a character other than white space. */
  function BackSpace(s: string, lo: nat, j: nat): (n: nat)
    requires lo <= j <= |s|
    ensures lo <= n <= j
    ensures forall k :: n <= k < j ==> IsSpace(s[k])
    ensures n > lo ==> !IsSpace(s[n - 1])
  {
    if j > lo && IsSpace(s[j - 1]) then BackSpace(s, lo, j - 1) else j
  }

  /** Number of white-space characters `strip()` removes from the front. */
  function LeadingSpace(s: string): (n: nat)
    ensures n <= |s|
  {
    SkipSpace(s, 0)
  }

  /** Python's `str.strip()` with no argument. */
  function Strip(s: string): (r: string)
    ensures |r| <= |s|
    ensures IsStripped(r)
    ensures LeadingSpace(s) + |r| <= |s|
    ensures r == s[LeadingSpace(s)..LeadingSpace(s) + |r|]
    ensures forall k :: 0 <= k < LeadingSpace(s) ==> IsSpace(s[k])
    ensures forall k :: LeadingSpace(s) + |r| <= k < |s| ==> IsSpace(s[k])
  {
    var a := SkipSpace(s, 0);
    var b := BackSpace(s, a, |s|);
    s[a..b]
  }

  /** Stripping removes everything exactly when the text is all white space
      (in particular the empty text strips to the empty text). */
  lemma StripEmptyIffAllSpace(s: string)
    ensures Strip(s) == [] <==> AllSpace(s)
  {
    if AllSpace(s) {
      SkipAllSpace(s, 0);
    }
  }

  lemma {:induction false} SkipAllSpace(s: string, i: nat)
    requires i <= |s| && AllSpace(s)
    ensures SkipSpace(s, i) == |s|
    decreases |s| - i
  {
    if i < |s| {
      SkipAllSpace(s, i + 1);
    }
  }

  /** `strip()` is idempotent: text that is already stripped is returned as is. */
  lemma StripStripped(s: string)
    requires IsStripped(s)
    ensures Strip(s) == s
  {
    assert SkipSpace(s, 0) == 0;
    assert BackSpace(s, 0, |s|) == |s|;
  }

  /** `c.lower()` for ASCII letters; every other character is left as it is. */
  function LowerChar(c: char): (d: char)
    ensures 'A' <= c <= 'Z' ==> 'a' <= d <= 'z' && d as int - c as int == 32
    ensures !('A' <= c <= 'Z') ==> d == c
  {
    if 'A' <= c <= 'Z' then (c as int + 32) as char else c
  }

  /** `s.lower()`, restricted to ASCII letters. */
  function Lower(s: string): (r: string)
    ensures |r| == |s|
    ensures forall k :: 0 <= k < |s| ==> r[k] == LowerChar(s[k])
  {
    if s == [] then [] else [LowerChar(s[0])] + Lower(s[1..])
  }

  /** Total length of a list of strings. */
  function TotalLength(parts: seq<string>): nat {
    if parts == [] then 0 else |parts[0]| + TotalLength(parts[1..])
  }

  /** `sep.join(parts)`. */
  function Join(parts: seq<string>, sep: string): (r: string)
    ensures parts == [] ==> r == ""
    ensures |parts| == 1 ==> r == parts[0]
    ensures |parts| >= 1 ==> |r| == TotalLength(parts) + (|parts| - 1) * |sep|
    ensures |parts| >= 1 ==> r[..|parts[0]|] == parts[0]
  {
    if parts == [] then ""
    else if |parts| == 1 then parts[0]
    else
      var rest := Join(parts[1..], sep);
      assert (|parts| - 1) * |sep| == |sep| + (|parts| - 2) * |sep|;
      parts[0] + sep + rest
  }

  /** Joining one more part appends the separator and that part, so the
      joined text holds every part, in order, with one separator between
      neighbours. */
  lemma {:induction false} JoinSnoc(parts: seq<string>, last: string, sep: string)
    requires parts != []
    ensures Join(parts + [last], sep) == Join(parts, sep) + sep + last
  {
    if |parts| == 1 {
      assert (parts + [last])[1..] == [last];
    } else {
      assert (parts + [last])[1..] == parts[1..] + [last];
      JoinSnoc(parts[1..], last, sep);
    }
  }

  /** `s.endswith(t)`. */
  predicate EndsWith(s: string, t: string) {
    |t| <= |s| && s[|s| - |t|..] == t
  }

  predicate IsDigit(c: char) {
    '0' <= c <= '9'
  }

  predicate AllDigits(s: string) {
    forall k :: 0 <= k < |s| ==> IsDigit(s[k])
  }

  function DigitChar(d: nat): (c: char)
    requires d < 10
    ensures IsDigit(c)
  {
    ('0' as int + d) as char
  }

  /** Decimal value of a string of digits (leading zeros allowed). */
  function ParseDigits(s: string): nat
    requires AllDigits(s)
  {
    if s == [] then 0
    else 10 * ParseDigits(s[..|s| - 1]) + (s[|s| - 1] as int - '0' as int)
  }

  /** Python's `str(n)` for a natural number: its shortest decimal spelling. */
  function NatToString(n: nat): (s: string)
    ensures |s| >= 1 && AllDigits(s)
    ensures |s| > 1 ==> s[0] != '0'
  {
    if n < 10 then [DigitChar(n)] else NatToString(n / 10) + [DigitChar(n % 10)]
  }

  /** Reading back the decimal spelling of `n` gives `n`. */
  lemma {:induction false} ParseNatToString(n: nat)
    ensures ParseDigits(NatToString(n)) == n
  {
    if n >= 10 {
      var s := NatToString(n);
      assert s[..|s| - 1] == NatToString(n / 10);
      ParseNatToString(n / 10);
    }
  }

  /** Python's `str(i)` for any integer. */
  function IntToString(i: int): (s: string)
    ensures |s| >= 1 && (i < 0 <==> s[0] == '-')
    ensures i >= 0 ==> AllDigits(s)
    ensures i < 0 ==> |s| >= 2 && AllDigits(s[1..])
    ensures forall k :: 0 < k < |s| ==> IsDigit(s[k])
  {
    if i < 0 then "-" + NatToString(-i) else NatToString(i)
  }

  /** Where the run of non-blank characters that ends at `j` starts. */
  function WordStart(s: string, j: nat): (n: nat)
    requires j <= |s|
    ensures n <= j
    ensures forall k :: n <= k < j ==> s[k] != ' '
    ensures n > 0 ==> s[n - 1] == ' '
  {
    if j > 0 && s[j - 1] != ' ' then WordStart(s, j - 1) else j
  }

  /** A blank at `lo - 1` followed by non-blanks up to `j` fixes the word's
      start at `lo`. */
  lemma WordStartAt(s: string, lo: nat, j: nat)
    requires 0 < lo <= j <= |s| && s[lo - 1] == ' '
    requires forall k :: lo <= k < j ==> s[k] != ' '
    ensures WordStart(s, j) == lo
  {
  }

  function Zeros(n: nat): (s: string)
    ensures |s| == n && AllDigits(s)
    ensures forall k :: 0 <= k < n ==> s[k] == '0'
  {
    if n == 0 then "" else "0" + Zeros(n - 1)
  }

  /** `"%0*d" % (width, n)`: `n` in decimal, left-padded with zeros to `width`. */
  function PadDigits(n: nat, width: nat): (s: string)
    ensures AllDigits(s)
    ensures |s| == if |NatToString(n)| >= width then |NatToString(n)| else width
  {
    var d := NatToString(n);
    if |d| >= width then d else Zeros(width - |d|) + d
  }

  lemma {:induction false} ParseZeros(n: nat)
    ensures ParseDigits(Zeros(n)) == 0
  {
    if n > 0 {
      assert Zeros(n)[..n - 1] == Zeros(n - 1);
      ParseZeros(n - 1);
    }
  }

  /** Leading zeros do not change a decimal value. */
  lemma {:induction false} ParseLeadingZeros(z: nat, s: string)
    requires AllDigits(s)
    ensures ParseDigits(Zeros(z) + s) == ParseDigits(s)
  {
    if s == [] {
      assert Zeros(z) + s == Zeros(z);
      ParseZeros(z);
    } else {
      assert (Zeros(z) + s)[..|Zeros(z) + s| - 1] == Zeros(z) + s[..|s| - 1];
      ParseLeadingZeros(z, s[..|s| - 1]);
    }
  }

  /** Zero padding is undone by reading the digits back. */
  lemma PadDigitsRoundTrip(n: nat, width: nat)
    ensures ParseDigits(PadDigits(n, width)) == n
  {
    var d := NatToString(n);
    ParseNatToString(n);
    if |d| < width {
      var z := width - |d|;
      assert PadDigits(n, width) == Zeros(z) + d;
      ParseLeadingZeros(z, d);
    }
  }

  /** One bound of a Python slice `s[i:j]`: negative values count from the
      end, and the result is clipped to `[0, len]`. */
  function SliceBound(i: int, len: nat): (b: nat)
    ensures b <= len
    ensures 0 <= i <= len ==> b == i
    ensures i > len ==> b == len
    ensures i < 0 ==> b == if i + len < 0 then 0 else i + len
  {
    if i < 0 then (if i + len < 0 then 0 else i + len)
    else if i > len then len
    else i
  }

  /** Python's `s[lo:hi]` for any integer bounds. */
  function PySlice<T>(s: seq<T>, lo: int, hi: int): (r: seq<T>)
    ensures |r| <= |s|
    ensures 0 <= lo <= hi <= |s| ==> r == s[lo..hi]
    ensures 0 <= hi <= lo ==> r == []
    ensures lo == 0 && hi >= |s| ==> r == s
  {
    var a := SliceBound(lo, |s|);
    var b := SliceBound(hi, |s|);
    if a < b then s[a..b] else []
  }

  /** A slice holds only elements of the sequence it was cut from. */
  lemma PySliceWithin<T>(s: seq<T>, lo: int, hi: int, x: T)
    requires x in PySlice(s, lo, hi)
    ensures x in s
  {
    var a := SliceBound(lo, |s|);
    var b := SliceBound(hi, |s|);
    var k :| 0 <= k < |s[a..b]| && s[a..b][k] == x;
    assert s[a + k] == x;
  }
}

=== FILE: text_extraction.dfy ===
/** Text extraction (`TextExtractor` in services/text_extraction.py): the
    saved file's extension picks the PDF or the plain-text reader, and the
    extracted text comes back stripped. What reading the file yields is a
    parameter: the PDF reader's page texts and the UTF-8 decoded contents,
    each of which may have failed. */
module TextExtraction {
  import opened Text
  import opened Errors

  const ExtractionFailed: string := "Text extraction failed"
  const PdfError: string := "PDF extraction error"
  const TxtError: string := "TXT extraction error"
  const UnsupportedFormat: string := "Unsupported file format: "

  /** What the readers see of a saved file: `page.extract_text()` for each
      page of the PDF reader (`None` for a page without text), and what
      `f.read()` returns on the file opened in text mode as UTF-8, that is
      decoded and with `\r\n` and `\r` already turned into `\n`; either
      read may raise. */
  datatype StoredFile = StoredFile(pdfPages: Result<seq<Option<string>>>, utf8: Result<string>)

  /** `path.split(".")[-1]`: everything after the last dot, or the whole
      path when it has none. */
  function AfterLastDot(path: string): (tail: string)
    ensures |tail| <= |path| && tail == path[|path| - |tail|..]
    ensures forall k :: 0 <= k < |tail| ==> tail[k] != '.'
    ensures |tail| < |path| ==> path[|path| - |tail| - 1] == '.'
  {
    if path == [] then []
    else if path[|path| - 1] == '.' then []
    else AfterLastDot(path[..|path| - 1]) + [path[|path| - 1]]
  }

  /** The format `extract_text` dispatches on: a dot-free, lower-case tail
      of the path, one character for each character of that tail. */
  function FormatOf(path: string): (f: string)
    ensures |f| == |AfterLastDot(path)| <= |path|
    ensures forall k :: 0 <= k < |f| ==> f[k] != '.' && !('A' <= f[k] <= 'Z')
  {
    Lower(AfterLastDot(path))
  }

  /** `text += page.extract_text() or ""` over the pages, in order: the
      text starts with the first page's text and ends with the last's. */
  function ConcatPages(pages: seq<Option<string>>): (text: string)
    ensures pages != [] ==> pages[0].GetOr("") <= text
    ensures pages != [] ==> EndsWith(text, pages[|pages| - 1].GetOr(""))
  {
    if pages == [] then "" else ConcatPages(pages[..|pages| - 1]) + pages[|pages| - 1].GetOr("")
  }

  /** `_extract_pdf_text`. */
  function ExtractPdf(pages: Result<seq<Option<string>>>): (r: Result<string>)
    ensures pages.Ok? <==> r.Ok?
    ensures r.Ok? ==> r.value == Strip(ConcatPages(pages.value)) && IsStripped(r.value)
    ensures r.Err? ==> r.error == HttpException(500, PdfError + ": " + pages.error.Describe())
  {
    var ps :- Rewrap(pages, 500, PdfError);
    Ok(Strip(ConcatPages(ps)))
  }

  /** `_extract_txt_text`. */
  function ExtractTxt(contents: Result<string>): (r: Result<string>)
    ensures contents.Ok? <==> r.Ok?
    ensures r.Ok? ==> r.value == Strip(contents.value) && IsStripped(r.value)
    ensures r.Err? ==> r.error == HttpException(500, TxtError + ": " + contents.error.Describe())
  {
    var text :- Rewrap(contents, 500, TxtError);
    Ok(Strip(text))
  }

  /** A text file that is already stripped extracts to its contents. */
  lemma StrippedTxtKept(contents: string)
    requires IsStripped(contents)
    ensures ExtractTxt(Ok(contents)) == Ok(contents)
  {
    StripStripped(contents);
  }

  /** `extract_text`: dispatch on the format; every failure, including the
      400 for an unsupported format, is caught by the method's own handler
      and raised again as a 500. */
  function ExtractText(path: string, file: StoredFile): (r: Result<string>)
    ensures r.Err? ==> r.error.IsHttp(500)
    ensures FormatOf(path) == "pdf" ==> r == Rewrap(ExtractPdf(file.pdfPages), 500, ExtractionFailed)
    ensures FormatOf(path) == "txt" ==> r == Rewrap(ExtractTxt(file.utf8), 500, ExtractionFailed)
    ensures FormatOf(path) != "pdf" && FormatOf(path) != "txt" ==>
      r == Err(HttpException(500, ExtractionFailed + ": " +
        HttpException(400, UnsupportedFormat + FormatOf(path)).Describe()))
    ensures r.Ok? ==> IsStripped(r.value)
  {
    var ext := FormatOf(path);
    var inner :=
      if ext == "pdf" then ExtractPdf(file.pdfPages)
      else if ext == "txt" then ExtractTxt(file.utf8)
      else Err(HttpException(400, UnsupportedFormat + ext));
    Rewrap(inner, 500, ExtractionFailed)
  }

  /** Extraction succeeds exactly for a `pdf` or `txt` path whose reader
      succeeds; an empty (or all white-space) document gives the empty
      text, which is returned rather than rejected. */
  lemma ExtractTextSucceeds(path: string, file: StoredFile)
    ensures ExtractText(path, file).Ok? <==>
      (FormatOf(path) == "pdf" && file.pdfPages.Ok?) || (FormatOf(path) == "txt" && file.utf8.Ok?)
    ensures FormatOf(path) == "txt" && file.utf8.Ok? && AllSpace(file.utf8.value) ==>
      ExtractText(path, file) == Ok("")
  {
    if FormatOf(path) == "txt" && file.utf8.Ok? {
      StripEmptyIffAllSpace(file.utf8.value);
    }
  }

  /** Page texts are concatenated in order: extracting a document whose
      pages are `a` followed by `b` reads the text of `a`, then that of `b`. */
  lemma {:induction false} ConcatPagesAppend(a: seq<Option<string>>, b: seq<Option<string>>)
    ensures ConcatPages(a + b) == ConcatPages(a) + ConcatPages(b)
    decreases |b|
  {
    if b == [] {
      assert a + b == a;
    } else {
      var init := b[..|b| - 1];
      var x := b[|b| - 1].GetOr("");
      assert (a + b)[..|a + b| - 1] == a + init;
      assert (a + b)[|a + b| - 1] == b[|b| - 1];
      calc {
        ConcatPages(a + b);
        ConcatPages(a + init) + x;
        { ConcatPagesAppend(a, init); }
        ConcatPages(a) + ConcatPages(init) + x;
        ConcatPages(a) + ConcatPages(b);
      }
    }
  }

  /** A page without text contributes nothing, exactly like a page whose
      text is empty. */
  lemma {:induction false} MissingPageIsEmpty(a: seq<Option<string>>, b: seq<Option<string>>)
    ensures ConcatPages(a + [None] + b) == ConcatPages(a + [Some("")] + b)
    ensures ConcatPages(a + [None] + b) == ConcatPages(a) + ConcatPages(b)
  {
    ConcatPagesAppend(a + [None], b);
    ConcatPagesAppend(a + [Some("")], b);
    assert (a + [None])[..|a|] == a;
    assert (a + [Some("")])[..|a|] == a;
  }

  /** The page loop is `"".join(page texts)`, a missing text read as `""`. */
  lemma {:induction false} ConcatPagesIsJoin(pages: seq<Option<string>>)
    ensures ConcatPages(pages) == Join(PageTexts(pages), "")
  {
    if |pages| == 1 {
      assert ConcatPages(pages) == ConcatPages([]) + pages[0].GetOr("");
    } else if |pages| > 1 {
      var init := pages[..|pages| - 1];
      ConcatPagesIsJoin(init);
      assert PageTexts(pages) == PageTexts(init) + [pages[|pages| - 1].GetOr("")];
      JoinSnoc(PageTexts(init), pages[|pages| - 1].GetOr(""), "");
    }
  }

  /** The page texts, `None` read as `""`. */
  function PageTexts(pages: seq<Option<string>>): (texts: seq<string>)
    ensures |texts| == |pages|
    ensures forall i :: 0 <= i < |pages| ==> texts[i] == pages[i].GetOr("")
  {
    if pages == [] then [] else PageTexts(pages[..|pages| - 1]) + [pages[|pages| - 1].GetOr("")]
  }

  /** The format is read from the whole path after its last dot, lower-cased:
      a stored `<id>.PDF` is read as a PDF, and a path with no dot at all
      is taken whole, so it is unsupported unless it is literally `pdf` or `txt`. */
  lemma FormatOfSuffix(dir: string, stem: string, ext: string)
    requires forall k :: 0 <= k < |ext| ==> ext[k] != '.'
    ensures FormatOf(dir + stem + "." + ext) == Lower(ext)
  {
    var p := dir + stem + "." + ext;
    AfterLastDotSuffix(dir + stem + ".", ext);
  }

  lemma {:induction false} AfterLastDotSuffix(prefix: string, ext: string)
    requires prefix != [] && prefix[|prefix| - 1] == '.'
    requires forall k :: 0 <= k < |ext| ==> ext[k] != '.'
    ensures AfterLastDot(prefix + ext) == ext
    decreases |ext|
  {
    var p := prefix + ext;
    if ext == [] {
      assert p == prefix;
    } else {
      var init := ext[..|ext| - 1];
      assert p[..|p| - 1] == prefix + init;
      assert p[|p| - 1] == ext[|ext| - 1] != '.';
      AfterLastDotSuffix(prefix, init);
      assert AfterLastDot(p) == AfterLastDot(prefix + init) + [ext[|ext| - 1]];
      assert ext == init + [ext[|ext| - 1]];
    }
  }

  /** Extracting a `.doc` file always fails with a 500 whose detail quotes
      the inner 400, whatever the rest of its name. */
  lemma UnsupportedIsServerError(stem: string, file: StoredFile)
    ensures FormatOf(stem + ".doc") == "doc"
    ensures ExtractText(stem + ".doc", file) ==
      Err(HttpException(500, ExtractionFailed + ": " + HttpException(400, UnsupportedFormat + "doc").Describe()))
  {
    assert stem + ".doc" == "" + stem + "." + "doc";
    FormatOfSuffix("", stem, "doc");
    assert Lower("doc") == "doc";
    var f := FormatOf(stem + ".doc");
    assert f != "pdf" && f != "txt" by {
      assert f[0] == 'd';
    }
  }
}

=== FILE: upload.dfy ===
/** The upload route (`upload_document` in routes/file_upload.py): validate
    the name, save the file, extract its text, cut the text into chunks of
    800 characters overlapping by 100, and embed the chunks. The route
    only reports counts: it writes to neither the vector index nor the
    document table, and no such state is among its arguments here. */
module Upload {
  import opened Text
  import opened Errors
  import opened Nearest
  import opened Splitter
  import opened FileUtils
  import opened TextExtraction
  import opened Embeddings

  /** The JSON body the route returns. */
  datatype UploadResponse = UploadResponse(
    filename: string,
    chunks: nat,
    embeddingsCount: nat,
    sampleEmbeddingDim: nat)

  /** The splitter the route builds, always with these sizes. */
  const UploadSplitter: TextSplitter := TextSplitter(800, 100)

  /** `upload_document`. The random id `uid` names the saved copy; `file` is
      what reading that copy yields; `model` is the embedding model. */
  function UploadDocument(filename: string, uid: string, file: StoredFile, model: string -> Vector): (r: Result<UploadResponse>)
    requires IsUuidHex(uid)
    ensures ValidateFile(filename).Err? ==> r == Err(ValidateFile(filename).error)
    ensures ValidateFile(filename).Ok? && ExtractText(SavedPath(uid, filename), file).Err? ==>
      r == Err(ExtractText(SavedPath(uid, filename), file).error)
    ensures r.Ok? ==>
      var text := ExtractText(SavedPath(uid, filename), file).value;
      var chunks := SplitText(UploadSplitter, text);
      && ValidateFile(filename).Ok?
      && r.value.filename == filename
      && r.value.chunks == |chunks| == r.value.embeddingsCount
      && chunks != []
      && r.value.sampleEmbeddingDim == |model(chunks[0])|
  {
    var ext :- ValidateFile(filename);
    var savedPath := SavedPath(uid, filename);
    var text :- ExtractText(savedPath, file);
    var chunks := SplitText(UploadSplitter, text);
    var embeddings :- CreateEmbeddings(model, chunks);
    Ok(UploadResponse(filename, |chunks|, |embeddings|,
      if embeddings != [] then |embeddings[0]| else 0))
  }

  /** The extension `validate_file` checks and the format `extract_text`
      dispatches on agree: for a name with an extension, the format is that
      extension without its dot, lower-cased. */
  lemma FormatAgreesWithExtension(path: string)
    requires HasExtension(path)
    ensures FormatOf(path) == Lower(Extension(path)[1..])
  {
    LastDotTailIsExtension(path);
  }

  /** The tail after the last dot of a name with an extension is that
      extension without its dot. */
  lemma LastDotTailIsExtension(path: string)
    requires HasExtension(path)
    ensures AfterLastDot(path) == Extension(path)[1..]
  {
    var e := Extension(path);
    var t := AfterLastDot(path);
    var n := |path|;
    assert path[n - |e|] == e[0] == '.';
    forall j | n - |t| <= j < n
      ensures path[j] != '.'
    {
      assert path[j] == t[j - (n - |t|)];
    }
    assert |t| < |e|;
    forall j | n - |e| < j < n
      ensures path[j] != '.'
    {
      assert path[j] == e[j - (n - |e|)];
    }
    assert |t| == |e| - 1;
    assert t == path[n - |t|..] == e[1..];
  }

  /** A rejected name fails the upload before anything is saved or read:
      the outcome does not depend on the file's contents or on the model. */
  lemma RejectedBeforeExtraction(filename: string, uid: string, f1: StoredFile, f2: StoredFile,
                                 m1: string -> Vector, m2: string -> Vector)
    requires IsUuidHex(uid) && ValidateFile(filename).Err?
    ensures UploadDocument(filename, uid, f1, m1) == UploadDocument(filename, uid, f2, m2)
    ensures UploadDocument(filename, uid, f1, m1).error.IsHttp(400)
  {
  }

  /** A document whose text strips to nothing yields no chunks; the
      embedder refuses the empty list, so the upload fails with a 500. */
  lemma EmptyTextFailsUpload(filename: string, uid: string, file: StoredFile, model: string -> Vector)
    requires IsUuidHex(uid)
    requires ExtractText(SavedPath(uid, filename), file) == Ok("")
    requires ValidateFile(filename).Ok?
    ensures UploadDocument(filename, uid, file, model) ==
      Err(HttpException(500, EmbeddingFailed + ": " + EmptyTexts))
  {
  }

  /** A successful upload reports `ceil(|text| / 700)` chunks and as many
      embeddings. */
  lemma UploadCounts(filename: string, uid: string, file: StoredFile, model: string -> Vector)
    requires IsUuidHex(uid)
    requires UploadDocument(filename, uid, file, model).Ok?
    ensures var text := ExtractText(SavedPath(uid, filename), file).value;
      && text != []
      && UploadDocument(filename, uid, file, model).value.chunks == CeilDiv(|text|, 700)
      && UploadDocument(filename, uid, file, model).value.embeddingsCount == CeilDiv(|text|, 700)
  {
    var text := ExtractText(SavedPath(uid, filename), file).value;
    ChunkCount(UploadSplitter, text);
  }

  /** Every non-empty extracted text is uploaded: validation, extraction and
      embedding are the only ways to fail. */
  lemma NonEmptyTextUploads(filename: string, uid: string, file: StoredFile, model: string -> Vector)
    requires IsUuidHex(uid) && ValidateFile(filename).Ok?
    requires ExtractText(SavedPath(uid, filename), file).Ok?
    requires ExtractText(SavedPath(uid, filename), file).value != []
    ensures UploadDocument(filename, uid, file, model).Ok?
  {
  }

  /** An upper-case `A.PDF` is accepted, stored as `<id>.PDF`, and still
      read by the PDF reader, because extraction lower-cases the format. */
  lemma UppercasePdfUpload(uid: string, file: StoredFile, model: string -> Vector)
    requires IsUuidHex(uid)
    ensures ValidateFile("A.PDF").Ok?
    ensures SavedPath(uid, "A.PDF") == UploadDir + "/" + uid + ".PDF"
    ensures FormatOf(SavedPath(uid, "A.PDF")) == "pdf"
    ensures ExtractText(SavedPath(uid, "A.PDF"), file).Ok? <==> file.pdfPages.Ok?
  {
    UppercaseAccepted(uid);
    UppercaseFormat(uid);
    ExtractTextSucceeds(SavedPath(uid, "A.PDF"), file);
  }

  lemma UppercaseFormat(uid: string)
    requires IsUuidHex(uid)
    ensures FormatOf(SavedPath(uid, "A.PDF")) == "pdf"
  {
    UppercaseAccepted(uid);
    var path := SavedPath(uid, "A.PDF");
    assert path == UploadDir + "/" + uid + "." + "PDF";
    FormatOfSuffix(UploadDir + "/", uid, "PDF");
    assert Lower("PDF") == "pdf";
  }
}

=== FILE: vector_store.dfy ===
/** The flat L2 vector store (`FAISSVectorStore` in
    services/vector_store_faiss.py). The index is a dimension and a list of
    integer vectors; the handle of a vector is its position in that list.
    Index files on disk are a map from path to what the file holds. */
module VectorStore {
  import opened Text
  import opened Errors
  import opened Nearest

  const DefaultIndexPath: string := "data/faiss_index.index"
  const DefaultEmbeddingDim: int := 384
  const DefaultTopK: int := 5

  /** An `IndexFlatL2`: exact search over every stored vector. */
  datatype FlatIndex = FlatIndex(dim: int, vectors: seq<Vector>) {
    /** `index.ntotal`. */
    function NTotal(): nat {
      |vectors|
    }

    /** Every stored vector has the index's dimension. */
    predicate Valid() {
      Fits(dim, vectors)
    }
  }

  predicate Fits(dim: int, batch: seq<Vector>) {
    forall i :: 0 <= i < |batch| ==> |batch[i]| == dim
  }

  /** What an index file holds: an index `write_index` wrote completely, or
      the remains of a write that failed part-way. `write_index` opens its
      target with `fopen(path, "wb")`, which empties the file before the
      first byte is written, so such remains are not a loadable index. */
  datatype IndexFile = Saved(index: FlatIndex) | Truncated

  /** Index files on disk, by path. */
  type Disk = map<string, IndexFile>

  /** Where writing an index file raises, if it does: before the target
      file is opened (`makedirs` without permission, `fopen` refused), which
      leaves the file as it was, or while writing (a full disk), which
      leaves it truncated. */
  datatype WriteFault = NoWriteFault | BeforeOpen(msg: string) | DuringWrite(msg: string)

  /** What a write leaves behind: the disk afterwards and the outcome. */
  datatype Written<T> = Written(disk: Disk, result: Result<T>)

  /** A store: where its index is persisted, the dimension it was opened
      with, and the index it holds in memory (`None` when not loaded). */
  datatype Store = Store(indexPath: string, embeddingDim: int, index: Option<FlatIndex>)

  /** `str(e)` of the `FileNotFoundError` that `os.makedirs("")` raises. */
  const MissingDirectory: string := "[Errno 2] No such file or directory: ''"

  const AddFailed: string := "Failed to add embeddings"
  const NoEmbeddingsToAdd: string := "No embeddings provided to add to FAISS index."
  const SearchFailed: string := "FAISS search failed"
  const NotLoaded: string := "FAISS index not loaded."
  const CreateFailed: string := "FAISS index creation failed"
  const NoEmbeddingsToCreate: string := "No embeddings provided to create FAISS index."

  /** `os.path.dirname(path)` is empty exactly when the path has no `/`. */
  predicate HasDirectory(path: string) {
    '/' in path
  }

  /** `os.makedirs(os.path.dirname(path), exist_ok=True)`: an existing or
      creatable directory is fine; a path without a directory part asks
      for the directory `''`, which fails. */
  function MakeParentDirs(path: string): (r: Result<()>)
    ensures r.Ok? <==> HasDirectory(path)
    ensures r.Err? ==> r.error.Describe() == MissingDirectory
  {
    if HasDirectory(path) then Ok(()) else Err(LibraryError(MissingDirectory))
  }

  const LoadFailed: string := "FAISS index load/create failed"
  const SaveFailed: string := "FAISS index save failed"
  /** Stands for faiss's error on reading a truncated index file. */
  const UnreadableIndex: string := "truncated index file"

  /** `FAISSVectorStore(index_path, embedding_dim)`: loads the index saved
      at `indexPath`, or starts an empty index of `embeddingDim`. `fault`
      is the message of the exception the file system or faiss raised while
      reading the file (a directory, a corrupt file) or making its
      directory (no permission), if either did. A truncated file never
      loads. */
  function Open(disk: Disk, indexPath: string, embeddingDim: int, fault: Option<string>): (r: Result<Store>)
    ensures r.Ok? ==> r.value.indexPath == indexPath && r.value.embeddingDim == embeddingDim
    ensures r.Ok? <==> fault.None? && (if indexPath in disk then disk[indexPath].Saved? else HasDirectory(indexPath))
    ensures indexPath in disk && r.Ok? ==> r.value.index == Some(disk[indexPath].index)
    ensures indexPath !in disk && r.Ok? ==> r.value.index == Some(FlatIndex(embeddingDim, []))
    ensures indexPath !in disk && !HasDirectory(indexPath) ==>
      r == Err(HttpException(500, LoadFailed + ": " + MissingDirectory))
    ensures (indexPath in disk || HasDirectory(indexPath)) && fault.Some? ==>
      r == Err(HttpException(500, LoadFailed + ": " + fault.value))
    ensures indexPath in disk && disk[indexPath].Truncated? && fault.None? ==>
      r == Err(HttpException(500, LoadFailed + ": " + UnreadableIndex))
  {
    if indexPath in disk then
      match (fault, disk[indexPath])
      case (Some(m), _) => Rewrap(Err(LibraryError(m)), 500, LoadFailed)
      case (None, Truncated) => Rewrap(Err(LibraryError(UnreadableIndex)), 500, LoadFailed)
      case (None, Saved(index)) => Ok(Store(indexPath, embeddingDim, Some(index)))
    else
      match MakeParentDirs(indexPath)
      case Err(e) => Rewrap(Err(e), 500, LoadFailed)
      case Ok(_) =>
        match fault
        case Some(m) => Rewrap(Err(LibraryError(m)), 500, LoadFailed)
        case None => Ok(Store(indexPath, embeddingDim, Some(FlatIndex(embeddingDim, []))))
  }

  /** Nothing but `path` differs between two disks. */
  predicate OnlyAt(before: Disk, after: Disk, path: string) {
    && (forall p :: p in after && p != path ==> p in before && after[p] == before[p])
    && (forall p :: p in before && p != path ==> p in after)
  }

  /** `save_index`: writes the in-memory index to `indexPath`. `fault` says
      where `makedirs` or `write_index` raised on a path that has a
      directory part, if either did. A failure before the file is opened
      leaves the disk as it was; one while writing leaves the file
      truncated. No other file is touched. */
  function SaveIndex(store: Store, disk: Disk, fault: WriteFault): (w: Written<()>)
    ensures w.result.Ok? <==> HasDirectory(store.indexPath) && fault.NoWriteFault? && store.index.Some?
    ensures w.result.Ok? ==> w.disk == disk[store.indexPath := Saved(store.index.value)]
    ensures w.result.Err? ==> w.result.error.IsHttp(500)
    ensures !HasDirectory(store.indexPath) ==>
      w == Written(disk, Err(HttpException(500, SaveFailed + ": " + MissingDirectory)))
    ensures HasDirectory(store.indexPath) && fault.BeforeOpen? ==>
      w == Written(disk, Err(HttpException(500, SaveFailed + ": " + fault.msg)))
    ensures HasDirectory(store.indexPath) && fault.DuringWrite? && store.index.Some? ==>
      w == Written(disk[store.indexPath := Truncated], Err(HttpException(500, SaveFailed + ": " + fault.msg)))
    ensures OnlyAt(disk, w.disk, store.indexPath)
  {
    match MakeParentDirs(store.indexPath)
    case Err(e) => Written(disk, Rewrap(Err(e), 500, SaveFailed))
    case Ok(_) =>
      match (fault, store.index)
      case (BeforeOpen(m), _) => Written(disk, Rewrap(Err(LibraryError(m)), 500, SaveFailed))
      case (_, None) => Written(disk, Rewrap(Err(LibraryError("")), 500, SaveFailed))
      case (DuringWrite(m), Some(_)) =>
        Written(disk[store.indexPath := Truncated], Rewrap(Err(LibraryError(m)), 500, SaveFailed))
      case (NoWriteFault, Some(index)) => Written(disk[store.indexPath := Saved(index)], Ok(()))
  }

  /** The integers `lo, lo + 1, ..., hi - 1`: Python's `list(range(lo, hi))`. */
  function Range(lo: int, hi: int): (r: seq<int>)
    ensures |r| == if lo <= hi then hi - lo else 0
    ensures forall i :: 0 <= i < |r| ==> r[i] == lo + i
  {
    if lo >= hi then [] else seq(hi - lo, i => lo + i)
  }

  /** What `add_embeddings` leaves behind: the store (its index may have
      grown even when the call fails), the disk and the call's outcome. */
  datatype AddOutcome = AddOutcome(store: Store, disk: Disk, handles: Result<seq<int>>)

  /** `add_embeddings`: appends the batch to the index, saves the index and
      returns the handles of the new vectors. `fault` is where the save
      raises, as for `SaveIndex`. An empty batch, a missing index or a
      batch of the wrong dimension fails before anything is appended or
      written. */
  function AddEmbeddings(store: Store, disk: Disk, batch: seq<Vector>, fault: WriteFault): (out: AddOutcome)
    ensures out.store.indexPath == store.indexPath && out.store.embeddingDim == store.embeddingDim
    ensures batch == [] ==>
      out == AddOutcome(store, disk, Err(HttpException(500, AddFailed + ": " + NoEmbeddingsToAdd)))
    ensures !(store.index.Some? && Fits(store.index.value.dim, batch)) ==>
      out.store == store && out.disk == disk && out.handles.Err?
    ensures out.handles.Err? ==> out.handles.error.IsHttp(500)
    ensures out.handles.Ok? ==>
      && batch != []
      && store.index.Some? && out.store.index.Some?
      && out.store.index.value.dim == store.index.value.dim
      && out.store.index.value.vectors == store.index.value.vectors + batch
      && out.handles.value == Range(store.index.value.NTotal(), out.store.index.value.NTotal())
      && out.disk == disk[store.indexPath := Saved(out.store.index.value)]
    ensures store.index.Some? && Fits(store.index.value.dim, batch) && batch != [] ==>
      out.store.index == Some(FlatIndex(store.index.value.dim, store.index.value.vectors + batch))
    ensures out.handles.Ok? <==>
      batch != [] && store.index.Some? && Fits(store.index.value.dim, batch) && HasDirectory(store.indexPath)
      && fault.NoWriteFault?
    ensures OnlyAt(disk, out.disk, store.indexPath)
  {
    if batch == [] then
      AddOutcome(store, disk, Rewrap(Err(ValueError(NoEmbeddingsToAdd)), 500, AddFailed))
    else if store.index.None? then
      AddOutcome(store, disk, Rewrap(Err(LibraryError("'NoneType' object has no attribute 'ntotal'")), 500, AddFailed))
    else if !Fits(store.index.value.dim, batch) then
      AddOutcome(store, disk, Rewrap(Err(LibraryError("")), 500, AddFailed))
    else
      var prior := store.index.value;
      var grown := store.(index := Some(FlatIndex(prior.dim, prior.vectors + batch)));
      var saved := SaveIndex(grown, disk, fault);
      match saved.result
      case Err(e) => AddOutcome(grown, saved.disk, Rewrap(Err(e), 500, AddFailed))
      case Ok(_) => AddOutcome(grown, saved.disk, Ok(Range(prior.NTotal(), prior.NTotal() + |batch|)))
  }

  /** The add is not atomic: when the save fails on a path with a
      directory part, the call reports a 500 quoting the save's own 500,
      yet the vectors stay in the in-memory index. A failure before the
      file is opened keeps the old file; one while writing truncates it. */
  lemma AddGrowsWhenSaveFails(store: Store, disk: Disk, batch: seq<Vector>, fault: WriteFault)
    requires store.index.Some? && batch != [] && Fits(store.index.value.dim, batch)
    requires HasDirectory(store.indexPath) && !fault.NoWriteFault?
    ensures var out := AddEmbeddings(store, disk, batch, fault);
      && out.handles == Err(HttpException(500, AddFailed + ": 500: " + SaveFailed + ": " + fault.msg))
      && out.store.index.value.vectors == store.index.value.vectors + batch
      && (fault.BeforeOpen? ==> out.disk == disk)
      && (fault.DuringWrite? ==> out.disk == disk[store.indexPath := Truncated])
  {
    assert IntToString(500) == "500" by {
      assert NatToString(500) == NatToString(50) + [DigitChar(0)];
      assert NatToString(50) == NatToString(5) + [DigitChar(0)];
    }
  }

  /** A write that fails part-way loses whatever index was saved at the
      path: reopening it fails. */
  lemma TruncatedIndexDoesNotReopen(store: Store, disk: Disk, batch: seq<Vector>, msg: string, dim: int)
    requires store.index.Some? && batch != [] && Fits(store.index.value.dim, batch)
    requires HasDirectory(store.indexPath)
    ensures var out := AddEmbeddings(store, disk, batch, DuringWrite(msg));
      Open(out.disk, store.indexPath, dim, None) == Err(HttpException(500, LoadFailed + ": " + UnreadableIndex))
  {
    AddGrowsWhenSaveFails(store, disk, batch, DuringWrite(msg));
  }

  /** The answer of a search: handles closest first and their squared
      distances, position by position. */
  datatype Hits = Hits(indices: seq<int>, distances: seq<int>)

  /** `search(query_vector, top_k)`: the `top_k` stored vectors nearest to
      the query (all of them when fewer are stored). */
  function Search(store: Store, query: Vector, topK: int): (r: Result<Hits>)
    ensures r.Err? ==> r.error.IsHttp(500)
    ensures store.index.None? ==> r == Err(HttpException(500, SearchFailed + ": " + NotLoaded))
    ensures r.Ok? <==> store.index.Some? && store.index.value.Valid() && |query| == store.index.value.dim && topK > 0
    ensures r.Ok? ==>
      var vs := store.index.value.vectors;
      && |r.value.indices| == |r.value.distances| == (if topK <= |vs| then topK else |vs|)
      && (forall i :: 0 <= i < |r.value.indices| ==>
            0 <= r.value.indices[i] < |vs| && r.value.distances[i] == SqDist(vs[r.value.indices[i]], query))
      && (forall i, j :: 0 <= i < j < |r.value.distances| ==> r.value.distances[i] <= r.value.distances[j])
  {
    match store.index
    case None => Rewrap(Err(ValueError(NotLoaded)), 500, SearchFailed)
    case Some(index) =>
      if !index.Valid() || |query| != index.dim || topK <= 0 then
        Rewrap(Err(LibraryError("")), 500, SearchFailed)
      else
        Ok(NearestHits(Distances(index.vectors, query), topK))
  }

  /** The `k` nearest handles and their distances. */
  function NearestHits(ds: seq<nat>, k: nat): (h: Hits)
    ensures |h.indices| == |h.distances| == (if k <= |ds| then k else |ds|)
    ensures forall i :: 0 <= i < |h.indices| ==> 0 <= h.indices[i] < |ds| && h.distances[i] == ds[h.indices[i]]
    ensures forall i, j :: 0 <= i < j < |h.distances| ==> h.distances[i] <= h.distances[j]
  {
    var hits := TopK(ds, k);
    var r := Hits(hits, DistancesOf(ds, hits));
    assert forall i, j :: 0 <= i < j < |hits| ==> Precedes(ds, hits[i], hits[j]);
    r
  }

  /** The distance of each hit, in the order of the hits. */
  function DistancesOf(ds: seq<nat>, hits: seq<nat>): (r: seq<int>)
    requires Handles(ds, hits)
    ensures |r| == |hits|
    ensures forall i :: 0 <= i < |hits| ==> r[i] == ds[hits[i]]
  {
    if hits == [] then [] else [ds[hits[0]]] + DistancesOf(ds, hits[1..])
  }

  /** A successful search ranks the whole index: a stored vector that is not
      among the hits is at least as far from the query as every hit. */
  lemma SearchReturnsNearest(store: Store, query: Vector, topK: int, i: int, other: int)
    requires Search(store, query, topK).Ok?
    requires 0 <= i < |Search(store, query, topK).value.indices|
    requires 0 <= other < store.index.value.NTotal()
    requires other !in Search(store, query, topK).value.indices
    ensures Search(store, query, topK).value.distances[i] <= SqDist(store.index.value.vectors[other], query)
  {
    var index := store.index.value;
    var ds := Distances(index.vectors, query);
    var hits := TopK(ds, topK);
    assert hits[i] in hits;
    TopKNearest(ds, topK, hits[i], other);
  }

  /** The hits are distinct handles. */
  lemma SearchHitsDistinct(store: Store, query: Vector, topK: int, i: int, j: int)
    requires Search(store, query, topK).Ok?
    requires 0 <= i < j < |Search(store, query, topK).value.indices|
    ensures Search(store, query, topK).value.indices[i] != Search(store, query, topK).value.indices[j]
  {
    var ds := Distances(store.index.value.vectors, query);
    RankedDistinct(ds, TopK(ds, topK), i, j);
  }

  /** Searching for a vector that is stored finds it first, at distance 0. */
  lemma SearchFindsStoredVector(store: Store, h: int, topK: int)
    requires store.index.Some? && store.index.value.Valid()
    requires 0 <= h < store.index.value.NTotal() && topK > 0
    ensures Search(store, store.index.value.vectors[h], topK).Ok?
    ensures var hits := Search(store, store.index.value.vectors[h], topK).value;
      && hits.indices != [] && hits.distances[0] == 0
      && store.index.value.vectors[hits.indices[0]] == store.index.value.vectors[h]
  {
    var index := store.index.value;
    var q := index.vectors[h];
    var ds := Distances(index.vectors, q);
    var hits := TopK(ds, topK);
    assert ds[h] == 0;
    if hits[0] != h {
      if h !in hits {
        TopKNearest(ds, topK, hits[0], h);
      } else {
        var j :| 0 <= j < |hits| && hits[j] == h;
        assert Precedes(ds, hits[0], hits[j]);
      }
    }
    SqDistZeroIff(index.vectors[hits[0]], q);
  }

  /** An empty index answers every well-formed query with no hits. */
  lemma SearchEmptyIndex(store: Store, query: Vector, topK: int)
    requires store.index.Some? && store.index.value.vectors == []
    requires |query| == store.index.value.dim && topK > 0
    ensures Search(store, query, topK) == Ok(Hits([], []))
  {
  }

  /** Opening and adding keep every stored vector at the index's dimension,
      which is what lets later searches succeed. */
  lemma AddKeepsValid(store: Store, disk: Disk, batch: seq<Vector>, fault: WriteFault)
    requires store.index.Some? && store.index.value.Valid()
    ensures AddEmbeddings(store, disk, batch, fault).store.index.Some?
    ensures AddEmbeddings(store, disk, batch, fault).store.index.value.Valid()
  {
    var out := AddEmbeddings(store, disk, batch, fault);
    if batch != [] && Fits(store.index.value.dim, batch) {
      var vs := store.index.value.vectors + batch;
      assert forall i :: 0 <= i < |vs| ==> vs[i] == if i < |store.index.value.vectors| then store.index.value.vectors[i] else batch[i - |store.index.value.vectors|];
    }
  }

  lemma OpenValid(disk: Disk, indexPath: string, embeddingDim: int, fault: Option<string>)
    requires forall p :: p in disk && disk[p].Saved? ==> disk[p].index.Valid()
    requires Open(disk, indexPath, embeddingDim, fault).Ok?
    ensures Open(disk, indexPath, embeddingDim, fault).value.index.Some?
    ensures Open(disk, indexPath, embeddingDim, fault).value.index.value.Valid()
  {
  }

  /** Write-through: a store opened on the disk an add left behind loads the
      grown index, whatever dimension it is opened with. */
  lemma ReopenAfterAdd(store: Store, disk: Disk, batch: seq<Vector>, dim: int)
    requires AddEmbeddings(store, disk, batch, NoWriteFault).handles.Ok?
    ensures var out := AddEmbeddings(store, disk, batch, NoWriteFault);
      Open(out.disk, store.indexPath, dim, None) == Ok(Store(store.indexPath, dim, out.store.index))
  {
  }

  /** Adds a list of batches one after the other, every save succeeding
      when the path allows it, stopping at the first failure; the
      successful handles are collected in order. */
  function AddAll(store: Store, disk: Disk, batches: seq<seq<Vector>>): (out: AddOutcome)
    decreases |batches|
    ensures out.store.indexPath == store.indexPath
  {
    if batches == [] then AddOutcome(store, disk, Ok([]))
    else
      var first := AddEmbeddings(store, disk, batches[0], NoWriteFault);
      match first.handles
      case Err(e) => first
      case Ok(hs) =>
        var rest := AddAll(first.store, first.disk, batches[1..]);
        match rest.handles
        case Err(e) => rest
        case Ok(more) => AddOutcome(rest.store, rest.disk, Ok(hs + more))
  }

  function TotalSize(batches: seq<seq<Vector>>): nat {
    if batches == [] then 0 else |batches[0]| + TotalSize(batches[1..])
  }

  lemma {:induction false} RangeAppend(lo: int, mid: int, hi: int)
    requires lo <= mid <= hi
    ensures Range(lo, mid) + Range(mid, hi) == Range(lo, hi)
  {
    var a := Range(lo, mid) + Range(mid, hi);
    assert |a| == |Range(lo, hi)|;
    forall i | 0 <= i < |a|
      ensures a[i] == Range(lo, hi)[i]
    {
      if i < mid - lo {
        assert a[i] == Range(lo, mid)[i];
      } else {
        assert a[i] == Range(mid, hi)[i - (mid - lo)];
      }
    }
  }

  /** Successive adds hand out one contiguous block of handles: the handles
      of all the batches together are `ntotal .. ntotal + total - 1`, in
      input order, and the index holds exactly the old vectors followed by
      every batch. */
  lemma {:induction false} AddAllContiguous(store: Store, disk: Disk, batches: seq<seq<Vector>>)
    decreases |batches|
    requires store.index.Some?
    requires AddAll(store, disk, batches).handles.Ok?
    ensures var out := AddAll(store, disk, batches);
      var n := store.index.value.NTotal();
      && out.store.index.Some?
      && out.store.index.value.dim == store.index.value.dim
      && out.handles.value == Range(n, n + TotalSize(batches))
      && out.store.index.value.NTotal() == n + TotalSize(batches)
  {
    var n := store.index.value.NTotal();
    if batches != [] {
      var first := AddEmbeddings(store, disk, batches[0], NoWriteFault);
      var m := first.store.index.value.NTotal();
      assert m == n + |batches[0]|;
      AddAllContiguous(first.store, first.disk, batches[1..]);
      RangeAppend(n, m, m + TotalSize(batches[1..]));
    }
  }

  /** `create_new_index(embeddings, output_path, dimension)`: builds a fresh
      index of the batch and saves it at `outputPath`, answering that path.
      A dimension of `None` or `0` (both falsy) means the length of the
      first vector. `fault` is where `makedirs` or `write_index` raises on a
      path that has a directory part, as for `SaveIndex`. */
  function CreateNewIndex(disk: Disk, batch: seq<Vector>, outputPath: string, dimension: Option<int>,
                          fault: WriteFault): (c: Written<string>)
    ensures batch == [] ==> c == Written(disk, Err(HttpException(500, CreateFailed + ": " + NoEmbeddingsToCreate)))
    ensures c.result.Err? ==> c.result.error.IsHttp(500)
    ensures c.result.Ok? ==> c.result.value == outputPath && batch != []
    ensures c.result.Ok? ==> c.disk == disk[outputPath := Saved(FlatIndex(CreatedDim(batch, dimension), batch))]
    ensures c.result.Ok? <==>
      batch != [] && Fits(CreatedDim(batch, dimension), batch) && HasDirectory(outputPath) && fault.NoWriteFault?
    ensures batch != [] && Fits(CreatedDim(batch, dimension), batch) && HasDirectory(outputPath) && !fault.NoWriteFault? ==>
      c.result == Err(HttpException(500, CreateFailed + ": " + fault.msg))
    ensures c.result.Err? ==> c.disk == disk || (fault.DuringWrite? && c.disk == disk[outputPath := Truncated])
    ensures OnlyAt(disk, c.disk, outputPath)
  {
    if batch == [] then
      Written(disk, Rewrap(Err(ValueError(NoEmbeddingsToCreate)), 500, CreateFailed))
    else
      var dim := CreatedDim(batch, dimension);
      if !Fits(dim, batch) then
        Written(disk, Rewrap(Err(LibraryError("")), 500, CreateFailed))
      else
        match MakeParentDirs(outputPath)
        case Err(e) => Written(disk, Rewrap(Err(e), 500, CreateFailed))
        case Ok(_) =>
          match fault
          case BeforeOpen(m) => Written(disk, Rewrap(Err(LibraryError(m)), 500, CreateFailed))
          case DuringWrite(m) => Written(disk[outputPath := Truncated], Rewrap(Err(LibraryError(m)), 500, CreateFailed))
          case NoWriteFault => Written(disk[outputPath := Saved(FlatIndex(dim, batch))], Ok(outputPath))
  }

  /** `dimension or len(embeddings[0])`: a given non-zero dimension wins,
      and `None` or `0` falls back to the first vector's length. */
  function CreatedDim(batch: seq<Vector>, dimension: Option<int>): (d: int)
    requires batch != []
    ensures dimension.Some? && dimension.value != 0 ==> d == dimension.value
    ensures dimension.None? || dimension.value == 0 ==> d == |batch[0]|
  {
    if dimension.Some? && dimension.value != 0 then dimension.value else |batch[0]|
  }

  /** Without an explicit dimension the new index takes the first vector's
      length, so a batch of equal-length vectors is always accepted when
      the path has a directory. The store's own index is not an argument,
      so it is left as it was; other index files are untouched. */
  lemma CreateNewIndexDefaultDim(disk: Disk, batch: seq<Vector>, outputPath: string, other: string)
    requires batch != [] && HasDirectory(outputPath)
    requires forall i :: 0 <= i < |batch| ==> |batch[i]| == |batch[0]|
    requires other != outputPath && other in disk
    ensures CreateNewIndex(disk, batch, outputPath, None, NoWriteFault).result.Ok?
    ensures CreateNewIndex(disk, batch, outputPath, None, NoWriteFault).disk[outputPath] ==
      Saved(FlatIndex(|batch[0]|, batch))
    ensures CreateNewIndex(disk, batch, outputPath, None, NoWriteFault).disk[other] == disk[other]
  {
  }

  /** The default store on a fresh disk: an empty 384-dimensional index;
      adding three and then two vectors hands out handles 0, 1, 2 and then
      3, 4. */
  lemma DefaultStoreScenario(a: seq<Vector>, b: seq<Vector>)
    requires |a| == 3 && |b| == 2 && Fits(DefaultEmbeddingDim, a) && Fits(DefaultEmbeddingDim, b)
    ensures Open(map[], DefaultIndexPath, DefaultEmbeddingDim, None).Ok?
    ensures var s := Open(map[], DefaultIndexPath, DefaultEmbeddingDim, None).value;
      var first := AddEmbeddings(s, map[], a, NoWriteFault);
      && s.index == Some(FlatIndex(384, []))
      && first.handles == Ok([0, 1, 2])
      && AddEmbeddings(first.store, first.disk, b, NoWriteFault).handles == Ok([3, 4])
  {
    DefaultOpen();
    var s := Open(map[], DefaultIndexPath, DefaultEmbeddingDim, None).value;
    var first := AddEmbeddings(s, map[], a, NoWriteFault);
    FreshAdd(s, map[], a);
    assert Range(0, 3) == [0, 1, 2];
    ThenAdd(first.store, first.disk, a, b);
    assert Range(3, 5) == [3, 4];
  }

  lemma DefaultOpen()
    ensures Open(map[], DefaultIndexPath, DefaultEmbeddingDim, None) ==
      Ok(Store(DefaultIndexPath, 384, Some(FlatIndex(384, []))))
  {
    assert HasDirectory(DefaultIndexPath) by {
      assert DefaultIndexPath[4] == '/';
    }
  }

  lemma FreshAdd(s: Store, disk: Disk, a: seq<Vector>)
    requires s.index == Some(FlatIndex(s.embeddingDim, [])) && HasDirectory(s.indexPath)
    requires a != [] && Fits(s.embeddingDim, a)
    ensures AddEmbeddings(s, disk, a, NoWriteFault).handles == Ok(Range(0, |a|))
    ensures AddEmbeddings(s, disk, a, NoWriteFault).store == s.(index := Some(FlatIndex(s.embeddingDim, a)))
  {
    assert [] + a == a;
  }

  lemma ThenAdd(s: Store, disk: Disk, a: seq<Vector>, b: seq<Vector>)
    requires s.index == Some(FlatIndex(s.embeddingDim, a)) && HasDirectory(s.indexPath)
    requires b != [] && Fits(s.embeddingDim, b)
    ensures AddEmbeddings(s, disk, b, NoWriteFault).handles == Ok(Range(|a|, |a| + |b|))
  {
  }
}
